=== FILE: README.md ===
# InvestmentsManager core in Dafny

A model of the logic of InvestmentsManager, an iOS app for recording
savings accounts, bonds and stock positions and projecting their growth. It
covers:

- **The valuation engine.** `InvestmentCalculator.calculateFutureValue` and
  `calculateYearlyGrowth`, plus the second copy of both on the `Investment`
  record. Every exponent the engine passes to `pow` is a whole number, so the
  formulas are stated exactly over `real`. They are proved equal to an
  independent period-by-period simulation: interest credited once per
  period, and deposits paid in at the end of each period (module `Growth`).
- **The compounding frequency and the position type.** These are the enums
  `CompoundFrequency` and `InvestmentType`.
- **The validators.** `isValidEmail` is the regular expression
  `^\S+@\S+\.\S+$`, restated over code points with ICU's `\s` class.
  `isValidPassword` and `SimpleError` are also modelled.
- **The investment service.** Its create, fetch, update and delete calls are
  transitions over a document store. The store is a map keyed by
  (owner id, document id). The backend's reply and the fresh document id
  are parameters.
- **The screens' logic.**
  - The add/edit form: its numeric filter, the type-to-frequency rule, the
    enabling condition of Save, and the guard chain that builds the record
    and calls the service.
  - The guard chains and button conditions of registration and login.
  - The list: totals, load and delete, and the ordering by name.
  - The detail card and the list row.
  - The post-download shaping of the daily price series in
    `StockViewModel`.

Modules follow the source files: `Frequency`, `Kinds`, `Records`,
`Calculator`, `Validators`, `Service`, `InvestmentForm`, `Registration`,
`Login`, `InvestmentList`, `InvestmentDetail`, `InvestmentRow` and
`StockSeries`. They rest on `Wrappers` (Option/Result), `Text` (Unicode
blanks, trimming, string order), `Growth` (powers and the simulation) and
`Sorting` (sorting by a strict weak order).

Several things outside the code are parameters:
- the number parser `Double(String)`;
- the date parser (`DateFormatter` with "yyyy-MM-dd");
- `Double.formatted()`;
- the fresh UUID string;
- each backend reply.

The signed-in user's id is an `Option<string>` argument.

Three details of the code that the model keeps as written:
- **Owner id.** `createInvestment` does not reject an empty owner id.
- **Stock frequency.** Stocks are not forced to annual compounding when a
  record is built. Only the form's picker `onChange` sets it, and the engine
  ignores the frequency for stocks anyway.
- **Rate zero.** The calculator does not guard a zero rate with a positive
  contribution. It divides by the rate there, so the model's calculator
  requires a non-zero rate in that case. The form does guard it: Save
  refuses a rate that is not above zero (InvestmentFormView.swift:213-216),
  and `isFormValid` keeps the button disabled for such a rate.

The record follows the service and form, not the struct as shown in
`Models/Investment.swift` (`id: UUID`, no owner). It has an optional string
id and a `userId`. The id is taken to be a `@DocumentID`, the wrapper
`AppUser` uses (Models/AppUser.swift:14): decoding reads it from the
document's path, so a position created without an id reloads with the id
its document was given.

## Model

| member | source | states |
|---|---|---|
| Frequency.RawValue | InvestmentsManager/Models/CompoundFrequency.swift:10-14 | annually, semi-annually, quarterly and monthly have raw values 1, 2, 4 and 12 |
| Frequency.Month | InvestmentsManager/Models/CompoundFrequency.swift:16-23 | `month` is the length of one period in months: raw value times `month` is 12 for every case |
| Frequency.FromRawValue | InvestmentsManager/Models/CompoundFrequency.swift:10-14 | `init?(rawValue:)` succeeds exactly for 1, 2, 4 and 12, and yields the case with that raw value |
| Frequency.AllCases | InvestmentsManager/Models/CompoundFrequency.swift:10-14 | `allCases` lists each of the four cases, in declaration order, with increasing raw values |
| Frequency.RawValueRoundTrip | InvestmentsManager/Models/CompoundFrequency.swift:10-14 | decoding a case's raw value gives the case back |
| Frequency.RawValueInjective | InvestmentsManager/Models/CompoundFrequency.swift:10-14 | distinct cases have distinct raw values |
| Kinds.RawValue | InvestmentsManager/Models/InvestmentType.swift:10-14 | each case persists as one of the three strings "savingsAccount", "stocks" and "bonds" |
| Kinds.RawValueInjective | InvestmentsManager/Models/InvestmentType.swift:10-14 | distinct cases persist as distinct strings |
| Kinds.FromRawValue | InvestmentsManager/Models/InvestmentType.swift:10-14 | a stored type string decodes only if it is one of the three raw values |
| Kinds.RawValueRoundTrip | InvestmentsManager/Models/InvestmentType.swift:10-14 | encoding a type as its raw string and decoding it gives the type back |
| Growth.CompoundClosedForm | InvestmentsManager/Models/InvestmentCalculator.swift:17-29 | `balance * pow(1 + rate, k)` is exactly the balance after k periods of compounding at `rate` |
| Growth.AnnuityScaled | InvestmentsManager/Models/InvestmentCalculator.swift:22-32 | rate times the balance of k end-of-period deposits equals deposit times `(1 + rate)^k - 1` |
| Growth.AnnuityClosedForm | InvestmentsManager/Models/InvestmentCalculator.swift:22-32 | for a non-zero rate, `deposit * ((pow(1 + rate, k) - 1) / rate)` is exactly the balance of k end-of-period deposits |
| Growth.AnnuityAtZeroRate | InvestmentsManager/Models/InvestmentCalculator.swift:22-32 | at rate zero the deposits' balance is deposit times k, a value the source's formula cannot produce because it divides by the rate |
| Growth.CompoundGrows | InvestmentsManager/Models/InvestmentCalculator.swift:17-29 | a positive balance at a positive rate strictly grows with the number of periods |
| Growth.AnnuityGrows | InvestmentsManager/Models/InvestmentCalculator.swift:22-32 | positive deposits at a non-negative rate strictly grow with the number of periods |
| Calculator.FutureValueOfInitial | InvestmentsManager/Models/InvestmentCalculator.swift:11-29 | the principal term equals the simulated balance: n·years periods at r/n for savings and bonds (n the frequency's raw value, r the rate over 100), or `years` periods at r for stocks |
| Calculator.FutureValueOfContributions | InvestmentsManager/Models/InvestmentCalculator.swift:19-33 | the contribution term equals the simulated balance: deposits of m at the end of each of 12·years months at r/12 for savings and bonds (whatever the frequency), or of 12m at the end of each year at r for stocks |
| Calculator.FutureValue | InvestmentsManager/Models/InvestmentCalculator.swift:10-39 | the future value is the principal's simulated balance plus the contributions' simulated balance, the latter zero unless the monthly contribution is positive |
| Calculator.YearlyGrowth | InvestmentsManager/Models/InvestmentCalculator.swift:41-57 | for years ≥ 1, exactly `years` values. Value k is the future value of the same position over k+1 years. The last value is the future value, and the values strictly increase when principal and rate are positive |
| Calculator.FutureValueIncreasing | InvestmentsManager/Models/InvestmentCalculator.swift:17-33 | with positive principal and rate, a longer horizon gives a strictly larger future value |
| Calculator.StocksIgnoreFrequency | InvestmentsManager/Models/InvestmentCalculator.swift:28-36 | for stocks, changing the compound frequency does not change the future value |
| Calculator.NonPositiveContributionAddsNothing | InvestmentsManager/Models/InvestmentCalculator.swift:11-36 | an absent or non-positive contribution adds nothing. The value is `initial·(1+r/n)^(n·years)` for savings and bonds and `initial·(1+r)^years` for stocks |
| Calculator.FutureValueIgnoresIdentity | InvestmentsManager/Models/InvestmentCalculator.swift:10-39 | id, owner and name do not affect the value |
| Calculator.ZeroRateKeepsPrincipal | InvestmentsManager/Models/InvestmentCalculator.swift:11-29 | at rate zero with no contribution the value is the initial amount |
| Calculator.DuplicateEnginesAgree | InvestmentsManager/Models/Investment.swift:22-51 | `Investment.calculateFutureValue()` returns the calculator's value for every computable position |
| Calculator.DuplicateGrowthAgrees | InvestmentsManager/Models/Investment.swift:55-71 | `Investment.calculateYearlyGrowth()` returns `years` values, each the calculator's value for that year's horizon, the last the full future value |
| Records.RecordFutureValue | InvestmentsManager/Models/Investment.swift:22-51 | the record's own engine yields the period-by-period balance of the principal plus that of the contributions, the balances the calculator's value is also proved to equal |
| Records.RecordYearlyGrowth | InvestmentsManager/Models/Investment.swift:55-71 | the record's series has one value per year. Each is its own engine applied to a copy that differs only in `years`, and the last is its own future value |
| Records.RecordGrowthUpTo | InvestmentsManager/Models/Investment.swift:56-69 | after `count` iterations of the loop, `count` values have been appended, the k-th for horizon k+1 |
| Calculator.StocksExample | InvestmentsManager/Models/InvestmentCalculator.swift:28-36 | 1000 in stocks at 10% for two years is worth exactly 1210 |
| Calculator.SavingsExample | InvestmentsManager/Models/InvestmentCalculator.swift:15-26 | 1000 saved at 10% compounded semi-annually for a year is worth 1102.5, and a monthly contribution adds its monthly annuity |
| Calculator.StocksContributionExample | InvestmentsManager/Models/InvestmentCalculator.swift:28-36 | for stocks, 100 a month over one year at 10% adds one deposit of 1200, giving 2300 from 1000 |
| Validators.IsValidEmail | InvestmentsManager/Validators.swift:12-15 | the address is accepted iff it has no whitespace, an '@' at some index i ≥ 1 and a '.' at an index j with i+2 ≤ j ≤ length−2 |
| Validators.PasswordThreshold | InvestmentsManager/Validators.swift:17-19 | the password rule is a length threshold: a valid password stays valid however it is extended, "secret" is accepted and "secre" is not |
| Validators.SampleEmailAccepted | InvestmentsManager/Validators.swift:13 | "something@domain.com" is accepted |
| Validators.MalformedEmailsRejected | InvestmentsManager/Validators.swift:13 | "@b.com", "a@.com", "a@b.", "ab.com" and "a b@c.d" are rejected |
| Validators.SeveralAtSignsAccepted | InvestmentsManager/Validators.swift:13 | "a@b@c.d" is accepted, since `\S` matches '@' as well |
| Validators.DescriptionRoundTrip | InvestmentsManager/Validators.swift:27-36 | a `SimpleError`'s own `localizedDescription` is the message it was built with |
| Validators.MessageLostThroughError | InvestmentsManager/Validators.swift:36 | read through `any Error`, two `SimpleError`s with different messages show the same text |
| Text.Trim | InvestmentsManager/Views/InvestmentFormView.swift:203 | trimming keeps the contiguous middle of the string, which neither starts nor ends with a tab or space separator. Everything dropped is blank, and the result is empty iff the whole string is blank |
| Text.LexLessSound | InvestmentsManager/Views/InvestmentListView.swift:153 | when one name sorts before another, it is a proper prefix of it or is smaller at the first differing character |
| Text.LexLessComplete | InvestmentsManager/Views/InvestmentListView.swift:153 | a proper prefix, or a name smaller at the first difference, sorts first |
| Text.LexLessTotal | InvestmentsManager/Views/InvestmentListView.swift:153 | of two different names, one sorts before the other |
| Text.LexLessTransitive | InvestmentsManager/Views/InvestmentListView.swift:153 | the name order is transitive |
| Sorting.Sort | InvestmentsManager/Views/InvestmentListView.swift:153 | `sorted(by:)` with a strict weak order returns a permutation of its input in which no element precedes one ordered before it |
| Service.CreateInvestment | InvestmentsManager/InvestmentService.swift:14-40 | an absent id is replaced by the fresh id and a present one kept. On commit, the caller's original record is written at (its owner, that id) and the record is returned with the id filled in. No other key changes, nothing is written on failure, and an encoding failure reports "Unable to create investment" |
| Service.CreateLeavesOtherOwnersAlone | InvestmentsManager/InvestmentService.swift:26-27 | a create never adds, removes or changes another owner's documents |
| Service.GetInvestments | InvestmentsManager/InvestmentService.swift:42-62 | an error is passed on and no snapshot gives the empty list. Otherwise a single undecodable document under the user fails the whole fetch with that document's own decoding-error text, and a success returns, up to order, exactly the records stored under the user, one per document, each carrying its document's id |
| Service.DecodeDocuments | InvestmentsManager/InvestmentService.swift:52-59 | decoding is all or nothing: it fails iff some document does not decode, with the error text of such a document, and otherwise returns, up to order, the record of each document with the id read from its path, one occurrence per document |
| Service.StoredRecordsRemove | InvestmentsManager/InvestmentService.swift:52-59 | the records of a set of documents do not depend on the order in which the documents are enumerated |
| Service.UpdateInvestment | InvestmentsManager/InvestmentService.swift:64-86 | without an id it fails with "Investment ID is required" and the store is unchanged. Otherwise a commit replaces the whole document at (owner, id), no other key changes, and an encoding failure reports "Unable to update investment" |
| Service.UpdateIsIdempotent | InvestmentsManager/InvestmentService.swift:69-78 | writing the same record twice is the same as writing it once |
| Service.DeleteInvestment | InvestmentsManager/InvestmentService.swift:87-102 | without an id it fails with "Investment ID is required". Otherwise a confirmed delete removes the key (owner, id), present or not, and nothing else, and a failure leaves the store as it was |
| Service.DeleteIsIdempotent | InvestmentsManager/InvestmentService.swift:87-102 | deleting twice succeeds both times and leaves the store the first delete left |
| Service.DeleteUndoesCreate | InvestmentsManager/InvestmentService.swift:14-40 | deleting the record a create returned restores the store, when the key was free before |
| Service.CreatedPositionReloadsWithItsId | InvestmentsManager/InvestmentService.swift:14-59 | a position created without an id is stored without one, yet its document decodes to exactly the record the create returned, with the fresh id, and deleting that record removes its document |
| Service.DecodedRecordAddressesItsDocument | InvestmentsManager/InvestmentService.swift:64-101 | every record a fetch returns from an owner-scoped store updates and deletes the very document it was read from |
| InvestmentForm.InitialForm | InvestmentsManager/Views/InvestmentFormView.swift:27-38 | a new form starts empty at ten years, savings account, monthly compounding. An edit form starts with the record's name, horizon, type and frequency, its amount, rate and contribution shown through `formatted()`, and an absent contribution as empty text |
| InvestmentForm.KeepNumeric | InvestmentsManager/Views/InvestmentFormView.swift:192-194 | the filtered text holds only characters of "0123456789." and is no longer than the input |
| InvestmentForm.KeepNumericCounts | InvestmentsManager/Views/InvestmentFormView.swift:192-194 | each accepted character survives as often as it occurred, and every other character is dropped |
| InvestmentForm.KeepNumericIsSubsequence | InvestmentsManager/Views/InvestmentFormView.swift:192-194 | the kept characters stay in their original order |
| InvestmentForm.KeepNumericAppend | InvestmentsManager/Views/InvestmentFormView.swift:192-194 | filtering a concatenation is concatenating the filtered parts |
| InvestmentForm.KeepNumericFixesNumeric | InvestmentsManager/Views/InvestmentFormView.swift:192-194 | text made only of accepted characters passes unchanged |
| InvestmentForm.ValidateAndFormat | InvestmentsManager/Views/InvestmentFormView.swift:191-195 | afterwards the three numeric fields hold only accepted characters, and no other field changes |
| InvestmentForm.ValidateAndFormatIdempotent | InvestmentsManager/Views/InvestmentFormView.swift:191-195 | filtering twice is filtering once |
| InvestmentForm.ValidateAndFormatKeepsOrder | InvestmentsManager/Views/InvestmentFormView.swift:191-195 | each filtered field is a subsequence of what was typed |
| InvestmentForm.SelectType | InvestmentsManager/Views/InvestmentFormView.swift:105-109 | switching the type to stocks sets annual compounding, any other change keeps the frequency, and no other field changes |
| InvestmentForm.ClampYears | InvestmentsManager/Views/InvestmentFormView.swift:141 | the stepper's value stays within 1...50 and a value already in range is kept |
| InvestmentForm.IncrementYears | InvestmentsManager/Views/InvestmentFormView.swift:141 | "+" changes only the horizon: up by one below 50, staying at 50, and never leaving 1...50 |
| InvestmentForm.DecrementYears | InvestmentsManager/Views/InvestmentFormView.swift:141 | "−" changes only the horizon: down by one above 1, staying at 1, and never leaving 1...50 |
| InvestmentForm.SaveIffFormValid | InvestmentsManager/Views/InvestmentFormView.swift:183-216 | for a signed-in user, a non-blank name and a horizon of at least one year, saving gets past its guards iff the Save button is enabled, that is iff amount and rate both parse to numbers above zero |
| InvestmentForm.UnchangedEditSavesSameRecord | InvestmentsManager/Views/InvestmentFormView.swift:27-38 | when the shown numbers read back to the same values and the name has no surrounding blanks, opening an edit and saving it untouched updates the record unchanged, and Save is enabled for a positive horizon |
| InvestmentForm.GroupedAmountBlocksUnchangedEdit | InvestmentsManager/Views/InvestmentFormView.swift:32 | when the amount 1000 is shown as "1,000" and no text with a comma parses, an untouched edit leaves Save disabled and saving reports a non-positive amount |
| InvestmentForm.SaveInvestment | InvestmentsManager/Views/InvestmentFormView.swift:197-261 | checks run in order: a signed-in user, a non-blank name, a positive amount, a positive rate. Each failure gives exactly its own message and no service call. Otherwise the record has the trimmed non-empty name, the session's user id, the edited record's id (absent when new), the parsed amount and rate, and the contribution parsed without a check. Update is called iff editing, and create otherwise |
| InvestmentForm.ErrorAfterSave | InvestmentsManager/Views/InvestmentFormView.swift:197-233 | after Save the form shows an error iff a guard failed, and then the failed guard's own message; it is cleared otherwise |
| InvestmentForm.CompleteUpdate | InvestmentsManager/Views/InvestmentFormView.swift:236-247 | after an update, `onSave` receives the record the form built iff the service succeeded, and the failure's message is shown otherwise |
| InvestmentForm.CompleteCreate | InvestmentsManager/Views/InvestmentFormView.swift:249-260 | after a create, `onSave` receives the record the service returned iff it succeeded, and the failure's message is shown otherwise |
| InvestmentForm.NewPositionSaved | InvestmentsManager/Views/InvestmentFormView.swift:249-260 | saving a new position hands `onSave` the record with the fresh id, while the stored document is the built record with no id |
| InvestmentForm.EditedPositionSaved | InvestmentsManager/Views/InvestmentFormView.swift:235-247 | saving an edit replaces the document at the edited record's key with the built record, and hands that record to `onSave` |
| InvestmentForm.SaveCallImpliesValidNumbers | InvestmentsManager/Views/InvestmentFormView.swift:183-216 | whenever Save reaches the service, the form also satisfies `isFormValid` |
| Registration.HandleRegistration | InvestmentsManager/Views/RegisterView.swift:97-113 | "Invalid Email" iff the email fails the pattern. Otherwise "Invalid Password" iff the password is under six characters. Otherwise "Display Name is required" iff the name is blank. Otherwise sign-up is called with the three fields as typed, the name untrimmed |
| Registration.SignUpRequiresEnabledButton | InvestmentsManager/Views/RegisterView.swift:64-113 | every sign-up the handler lets through has all three fields non-empty, so it could come from the button, which is disabled while any field is empty |
| Registration.PasswordRuleShared | InvestmentsManager/Views/RegisterView.swift:103-106 | once the email passes, sign-up says "Invalid Password" and log-in says "Invalid Passwrd" exactly when `isValidPassword` fails |
| Registration.BlankNameEnablesButtonButIsRefused | InvestmentsManager/Views/RegisterView.swift:64-111 | a display name of one space enables the button, and the handler then refuses it |
| Login.HandleAuthentication | InvestmentsManager/Views/LoginView.swift:49-62 | "Invalid Email" iff the email fails the pattern. Otherwise "Invalid Passwrd" iff the password is under six characters. Otherwise log-in is called with the fields as typed |
| Login.LogInRequiresEnabledButton | InvestmentsManager/Views/LoginView.swift:44-62 | every log-in the handler lets through has both fields non-empty, so it could come from the button, which is disabled while either field is empty |
| Login.ShortPasswordMessage | InvestmentsManager/Views/LoginView.swift:56-59 | a five-character password with a valid email gets "Invalid Passwrd", spelled so |
| InvestmentForm.FailureShownLikeSignIn | InvestmentsManager/Views/InvestmentFormView.swift:236-260 | a save fails exactly when the log-in and sign-up completions (LoginView.swift:62-69, RegisterView.swift:113-120) would show an error for the same result, and the form then shows that same message |
| InvestmentList.SumOfAppend | InvestmentsManager/Views/InvestmentListView.swift:130-138 | a `reduce` sum over a concatenation is the sum of the two sums |
| InvestmentList.SumOfPermutation | InvestmentsManager/Views/InvestmentListView.swift:130-138 | a `reduce` sum does not depend on the order of the positions |
| InvestmentList.TotalsIgnoreOrder | InvestmentsManager/Views/InvestmentListView.swift:130-143 | total invested, total future value and total gain are the same for any ordering of the same positions |
| InvestmentList.TotalsOfJoinedLists | InvestmentsManager/Views/InvestmentListView.swift:130-138 | the totals of two lists joined are the sums of their totals |
| InvestmentList.NoContributionInvestsPrincipal | InvestmentsManager/Views/InvestmentListView.swift:132-133 | an absent contribution counts as zero, so the amount invested is the initial amount |
| InvestmentList.NameOrderIsStrictWeak | InvestmentsManager/Views/InvestmentListView.swift:153 | ordering by `name <` is a strict weak order, as `sorted(by:)` requires |
| InvestmentList.AmountInvested | InvestmentsManager/Views/InvestmentListView.swift:130-135 | what a position has cost is its initial amount plus the balance its contributions (absent counts as zero) would reach over 12·years months at a zero rate |
| InvestmentList.TotalInvested | InvestmentsManager/Views/InvestmentListView.swift:130-135 | the total invested of no positions is zero, and of a list is its first position's amount invested plus the rest's total, although `reduce` adds from the left |
| InvestmentList.TotalFutureValue | InvestmentsManager/Views/InvestmentListView.swift:137-139 | the total future value of no positions is zero, and of a list is its first position's future value plus the rest's total |
| InvestmentList.TotalGain | InvestmentsManager/Views/InvestmentListView.swift:141-143 | the total gain is the sum over positions of each one's future value minus its amount invested |
| InvestmentList.Screen | InvestmentsManager/Views/InvestmentListView.swift:25-40 | the spinner takes precedence, then the error, then the empty state, and the rows show only when none of these applies |
| InvestmentList.FinishLoad | InvestmentsManager/Views/InvestmentListView.swift:150-157 | a successful fetch replaces the list with the fetched positions sorted by name and clears the error. A failure keeps the list and sets the error |
| InvestmentList.LoadInvestments | InvestmentsManager/Views/InvestmentListView.swift:146-159 | without a user nothing changes. Otherwise the outcome is one of these: the service's error is shown over the old list; no snapshot gives an empty list; an undecodable document's own error text is shown over the old list; or the list is sorted by name and holds, up to order, exactly the records stored under the user, one per document, each carrying its document's id. The error is cleared iff every document decoded |
| InvestmentList.FailedReloadHidesRows | InvestmentsManager/Views/InvestmentListView.swift:25-157 | a failed reload keeps the old rows in state but shows the error instead, and the next successful non-empty load shows rows again |
| InvestmentList.LoadKeepsTotals | InvestmentsManager/Views/InvestmentListView.swift:130-154 | sorting on load leaves total invested and total future value as they were for the fetched list |
| InvestmentList.DeleteFromList | InvestmentsManager/Views/InvestmentListView.swift:161-171 | without a user nothing changes. A failed delete shows its error and keeps the list. A successful delete removes exactly the key and reloads from the store it leaves, with every outcome of a load: a rejected fetch shows its error over the old list, no snapshot empties the list, an undecodable document is reported over the old list, and otherwise the list is sorted by name and holds, up to order, exactly the records still stored under the user |
| InvestmentDetail.ReturnRate | InvestmentsManager/Views/InvestmentDetailView.swift:137 | the return rate is the percentage of the amount invested that the gain represents |
| InvestmentDetail.Summarize | InvestmentsManager/Views/InvestmentDetailView.swift:20-31 | the card shows the calculator's future value, and the amount invested as initial + contribution·years·12. The gain is their difference. The return rate is defined iff the amount invested is non-zero, and is then the gain as a percentage of it |
| InvestmentDetail.PreviewReturnRateUndefined | InvestmentsManager/Views/InvestmentDetailView.swift:189-205 | the preview position (nothing invested, zero contribution) has future value 0 and no defined return rate |
| InvestmentDetail.NegativeContributionShowsAsGain | InvestmentsManager/Views/InvestmentDetailView.swift:24-31 | a negative contribution lowers the amount invested while the future value ignores it, so the gain shows higher |
| InvestmentDetail.YearlyGrowth | InvestmentsManager/Views/InvestmentDetailView.swift:33-35 | the detail's series is the calculator's, and its last value is the card's future value |
| InvestmentDetail.DeleteFromDetail | InvestmentsManager/Views/InvestmentDetailView.swift:175-185 | the screen is dismissed and the list reloaded iff the record has an id and the delete is confirmed. Otherwise the store is unchanged and nothing is shown |
| InvestmentRow.Present | InvestmentsManager/Views/InvestmentRowView.swift:22-73 | the row's gain is the calculator's future value minus the amount invested. The Monthly line appears iff the contribution is present and positive, and the gain carries "+" iff it is ≥ 0 |
| InvestmentRow.RowAgreesWithDetail | InvestmentsManager/Views/InvestmentRowView.swift:22-34 | a row and the detail card of the same position show the same future value and gain |
| InvestmentRow.TotalGainIsSumOfRowGains | InvestmentsManager/Views/InvestmentRowView.swift:32-34 | the list's total gain is the sum of the gains its rows show |
| StockSeries.KeptKeys | InvestmentsManager/Models/StockViewModel.swift:29-33 | the days kept are among the series' days, so there are no more of them than there are days |
| StockSeries.CompactMap | InvestmentsManager/Models/StockViewModel.swift:29-33 | up to order, the entries are exactly one per day whose date and close both parse, holding those parsed values, and nothing for the other days |
| StockSeries.KeptEntriesRemove | InvestmentsManager/Models/StockViewModel.swift:29-33 | the entries of a set of days do not depend on the order in which the days are enumerated |
| StockSeries.DateOrderIsStrictWeak | InvestmentsManager/Models/StockViewModel.swift:34 | ordering by date is a strict weak order |
| StockSeries.FetchHistoricalData | InvestmentsManager/Models/StockViewModel.swift:20-37 | without a response the series is emptied and the error is "Failed to fetch data for " + symbol. Otherwise the error is cleared and the series is in date order and holds, up to order, exactly one entry per parsable day, that day's parsed date and close, so it is no longer than the time series |

## Findings

| source | as written | input that shows it | evidently intended | confidence | as-written member | corrected member |
|---|---|---|---|---|---|---|
| InvestmentsManager/Validators.swift:36 | `localizedDescription` is an ordinary property of `SimpleError`. Every completion handler reads it from a value of type `any Error`, where the name resolves to Foundation's extension on `Error`, so the message is bypassed | `updateInvestment` of a record with no id: the form shows Foundation's generic bridged description, the same text an encoding failure would give, instead of "Investment ID is required" | the handler shows the message the error was built with | not executed; high for the dispatch rule (members added by a protocol extension are dispatched statically), the exact bridged text is not modelled | Validators.MessageLostThroughError | Validators.DescriptionRoundTrip |
| InvestmentsManager/Views/InvestmentFormView.swift:32 | an edit form shows the amount through `formatted()`, which groups thousands, and Save and `saveInvestment` read it back with `Double(String)`, which accepts no grouping separator; the text is reformatted only when the field changes | a position with an amount of 1000 in an en-US locale, opened for editing and saved untouched: the field holds "1,000", Save stays disabled, and saving reports "Initial amount must be greater than 0" | an untouched edit saves the same record | not executed; medium, it depends on the locale and on the default grouping of `formatted()` | InvestmentForm.GroupedAmountBlocksUnchangedEdit | InvestmentForm.UnchangedEditSavesSameRecord |

The service and the screens model the corrected behaviour: a failure's
message reaches the screen unchanged. The form takes the number formatter
as a parameter; the rest of the model assumes one that reads back, which is
the premise of `UnchangedEditSavesSameRecord`.

## Left out

- Calculator.FutureValue: requires `years >= 0`. `pow` with a negative exponent would discount instead, and the model's powers are natural.
- Calculator.FutureValueOfContributions: requires a non-zero rate. The source divides by the rate and gets NaN or infinity there.
- Records.RecordFutureValue: requires `Computable`, that is `years >= 0` and a non-zero rate when there is a contribution, for the same two reasons as the calculator.
- IEEE-754 arithmetic: `Double` rounding, `pow`'s error, NaN and infinity are not modelled; the model computes over exact reals.
- InvestmentDetail.Summarize: a zero amount invested gives an absent return rate. The model does not say which NaN or infinity the division would print.
- Character classes are fixed lists. Swift's `.whitespaces` is taken as tab plus Unicode category Zs. ICU's `\s` is taken as the White_Space property its matcher uses: `[\t\n\v\f\r\x{85}\p{Z}]`. A later Unicode version that adds separators is not modelled.
- Validators.IsValidPassword: counts code points. Swift's `count` counts grapheme clusters, so a password of combining sequences can be shorter to Swift than to the model.
- InvestmentForm.KeepNumeric: filters code points. Swift's `filter` on a `String` tests grapheme clusters, so "1" followed by U+0301 is one cluster that is not a digit and is dropped whole, while the model keeps the "1".
- InvestmentForm.KeepNumericCounts: counts code points, for the same reason; a digit inside a multi-scalar cluster survives in the model and not in the source.
- InvestmentForm.KeepNumericAppend: holds over code points. Over clusters a concatenation can merge the last cluster of one part with the first of the next, which the model does not represent.
- Validators.IsValidEmail: ICU's `$` also matches before a final line terminator, so the source accepts "a@b.c" followed by a newline. The model rejects it.
- Text.LexLessSound: names are compared by code point. Swift compares strings up to Unicode canonical equivalence, which is not modelled.
- Text.LexLessTotal: totality is over code-point sequences. U+00E9 and "e" followed by U+0301 are different names to the model, so one sorts first; to Swift they are equal and neither does.
- Text.LexLessComplete: a smaller first differing code point sorts first in the model, while Swift may treat the two names as canonically equivalent.
- Sorting.Sort: Swift's sort is not stable. The model is one admissible order (insertion sort), and its contracts state only sortedness and permutation.
- Enumeration order is not modelled. A Swift dictionary's order is unspecified, and Firestore returns an unordered query in document-id order. `DecodeDocuments` and `CompactMap` pick keys in an arbitrary order, and their results are stated up to order. After the sort that follows each, the order matters only between positions with equal names or entries with equal dates, which Swift's unstable sort may place either way.
- Firestore semantics beyond a map are not modelled: encoding by `setData(from:)` and server timestamps. A document decodes to the record stored in it with the id of its path, or fails as a whole with the description of its decoding error. Which description a malformed document yields ("is missing" for an absent field, "isn't in the correct format" for a wrong type) is part of the stored document, not derived from its fields.
- The guard "Failed to create a new InvestmentID" (InvestmentService.swift:21-23) is unreachable, because the id was set just above. It has no branch in the model.
- Calculator.YearlyGrowth: requires `years >= 1`. Swift's `1...years` traps at run time for a smaller horizon (InvestmentCalculator.swift:43), and the trap is not modelled.
- Records.RecordYearlyGrowth: requires `years >= 1`, for the same trap of `1...self.years` (Investment.swift:56).
- InvestmentDetail.YearlyGrowth: requires `years >= 1`, because it calls the calculator's yearly growth.
- InvestmentForm.IncrementYears: SwiftUI's `Stepper` internals are not part of this model. The stepper is modelled as clamping to 1...50.
- Loading and saving flags (`isLoading`, `isSaving`), sheets, alerts, dismissal and navigation are left out. The exception is the list's spinner precedence in `Screen`.
- Presentation is left out: currency and "%.1f" formatting, type icons and colours, `rawValue.capitalized`.
- `DailyStockEntry`'s random `UUID` identity is left out. `StockSymbol`'s static table is not part of this model.
- The network half of `fetchHistoricalData` is a parameter (`response`); `WebService` and `NetworkError` are not part of this model.
- AuthService.swift is not part of this model: sign-up, log-in, the session and the profile self-heal. Its results enter the screens as parameters.
- ProfileView, DashboardView, SummaryCard, AuthGate and ContentView only display and forward. They are not part of this model.

=== FILE: calculator.dfy ===
/** `InvestmentCalculator`: future value and year-by-year growth of a position. */
module Calculator {
  import opened Wrappers
  import opened Frequency
  import opened Kinds
  import opened Growth
  import opened Records

  /** `futureValueOfInitial`: the principal under `pow`, which is its
      period-by-period balance. */
  function FutureValueOfInitial(inv: Investment): (v: real)
    requires inv.years >= 0
    ensures v == PrincipalBalance(inv)
  {
    var rate := inv.interestRate / 100.0;
    var timePeriod: nat := inv.years;
    match inv.investmentType
    case SavingsAccount | Bonds =>
      var months: nat := Frequency.RawValue(inv.compoundFrequency);
      var periods := PeriodCount(inv.compoundFrequency, timePeriod);
      CompoundClosedForm(inv.initialAmount, rate / (months as real), periods);
      CompoundFormula(inv.initialAmount, rate / (months as real), periods)
    case Stocks =>
      CompoundClosedForm(inv.initialAmount, rate, timePeriod);
      CompoundFormula(inv.initialAmount, rate, timePeriod)
  }

  /** `futureValueOfContributions`: the annuity under `pow`, divided by the
      period rate, which is the contributions' period-by-period balance. */
  function FutureValueOfContributions(inv: Investment): (v: real)
    requires Computable(inv) && Contributes(inv)
    ensures v == ContributionBalance(inv)
  {
    var rate := inv.interestRate / 100.0;
    var timePeriod: nat := inv.years;
    var monthly := inv.monthlyContribution.value;
    match inv.investmentType
    case SavingsAccount | Bonds =>
      var monthlyRate := rate / 12.0;
      var totalMonths: nat := timePeriod * 12;
      AnnuityClosedForm(monthly, monthlyRate, totalMonths);
      AnnuityFormula(monthly, monthlyRate, totalMonths)
    case Stocks =>
      var annualContribution := monthly * 12.0;
      AnnuityClosedForm(annualContribution, rate, timePeriod);
      AnnuityFormula(annualContribution, rate, timePeriod)
  }

  /** `calculateFutureValue(for:)`: the principal term, plus the contribution
      term only when the monthly contribution is positive. Its value is the
      period-by-period balance of the principal plus that of the contributions. */
  function FutureValue(inv: Investment): (v: real)
    requires Computable(inv)
    ensures v == PrincipalBalance(inv) + ContributionBalance(inv)
  {
    if Contributes(inv) then FutureValueOfInitial(inv) + FutureValueOfContributions(inv)
    else FutureValueOfInitial(inv)
  }

  /** `calculateYearlyGrowth(for:)`: for each year of `1...years`, the future
      value of a copy of the position whose horizon is that year. Swift traps
      on the empty range when `years < 1`, hence the precondition. */
  method YearlyGrowth(inv: Investment) returns (yearValues: seq<real>)
    requires inv.years >= 1
    requires Computable(inv)
    ensures |yearValues| == inv.years
    ensures forall k :: 0 <= k < |yearValues| ==> yearValues[k] == FutureValue(inv.(years := k + 1))
    ensures yearValues[|yearValues| - 1] == FutureValue(inv)
    ensures inv.initialAmount > 0.0 && inv.interestRate > 0.0 ==>
      forall i, j :: 0 <= i < j < |yearValues| ==> yearValues[i] < yearValues[j]
  {
    yearValues := [];
    var year := 1;
    while year <= inv.years
      invariant 1 <= year <= inv.years + 1
      invariant |yearValues| == year - 1
      invariant forall k :: 0 <= k < |yearValues| ==> yearValues[k] == FutureValue(inv.(years := k + 1))
    {
      var tempInvestment := inv.(years := year);
      yearValues := yearValues + [FutureValue(tempInvestment)];
      year := year + 1;
    }
    assert inv.(years := inv.years) == inv;
    if inv.initialAmount > 0.0 && inv.interestRate > 0.0 {
      forall i, j | 0 <= i < j < |yearValues|
        ensures yearValues[i] < yearValues[j]
      {
        FutureValueIncreasing(inv, i + 1, j + 1);
      }
    }
  }

  /** With a positive principal and a positive rate the future value strictly
      increases with the horizon, whatever the contribution. */
  lemma FutureValueIncreasing(inv: Investment, shorter: nat, longer: nat)
    requires inv.initialAmount > 0.0 && inv.interestRate > 0.0
    requires shorter < longer
    ensures FutureValue(inv.(years := shorter)) < FutureValue(inv.(years := longer))
  {
    var a, b := inv.(years := shorter), inv.(years := longer);
    if inv.investmentType == Stocks {
      CompoundGrows(inv.initialAmount, Rate(inv), shorter, longer);
      if Contributes(inv) {
        AnnuityGrows(inv.monthlyContribution.value * 12.0, Rate(inv), shorter, longer);
      }
    } else {
      var n := Frequency.RawValue(inv.compoundFrequency);
      assert n * shorter < n * longer;
      CompoundGrows(inv.initialAmount, Rate(inv) / (n as real), n * shorter, n * longer);
      if Contributes(inv) {
        AnnuityGrows(inv.monthlyContribution.value, Rate(inv) / 12.0, shorter * 12, longer * 12);
      }
    }
  }

  /** A stock position never reads its compound frequency. */
  lemma StocksIgnoreFrequency(inv: Investment, f: CompoundFrequency)
    requires Computable(inv) && inv.investmentType == Stocks
    ensures FutureValue(inv.(compoundFrequency := f)) == FutureValue(inv)
  {
  }

  /** An absent or non-positive monthly contribution adds nothing: the value
      is that of the same position with no contribution at all. */
  lemma NonPositiveContributionAddsNothing(inv: Investment)
    requires Computable(inv) && !Contributes(inv)
    ensures FutureValue(inv) == FutureValue(inv.(monthlyContribution := None))
    ensures inv.investmentType != Stocks ==>
      var n := Frequency.RawValue(inv.compoundFrequency);
      FutureValue(inv) == inv.initialAmount * Pow(1.0 + Rate(inv) / (n as real), n * inv.years)
    ensures inv.investmentType == Stocks ==>
      FutureValue(inv) == inv.initialAmount * Pow(1.0 + Rate(inv), inv.years)
  {
  }

  /** The value depends on no identifying field of the record. */
  lemma FutureValueIgnoresIdentity(inv: Investment, id: Option<string>, userId: string, name: string)
    requires Computable(inv)
    ensures FutureValue(inv.(id := id, userId := userId, name := name)) == FutureValue(inv)
  {
  }

  /** At a zero rate with nothing contributed, the principal does not move. */
  lemma ZeroRateKeepsPrincipal(inv: Investment)
    requires inv.years >= 0 && inv.interestRate == 0.0 && !Contributes(inv)
    ensures FutureValue(inv) == inv.initialAmount
  {
    if inv.investmentType == Stocks {
      PowOne(inv.years);
    } else {
      PowOne(Frequency.RawValue(inv.compoundFrequency) * inv.years);
    }
  }

  /** The copy of the engine on the record agrees with the calculator on every input. */
  lemma DuplicateEnginesAgree(inv: Investment)
    requires Computable(inv)
    ensures RecordFutureValue(inv) == FutureValue(inv)
  {
  }

  /** The record's yearly growth is the calculator's future value year by year. */
  lemma DuplicateGrowthAgrees(inv: Investment)
    requires inv.years >= 1 && Computable(inv)
    ensures |RecordYearlyGrowth(inv)| == inv.years
    ensures forall k :: 0 <= k < inv.years ==>
      RecordYearlyGrowth(inv)[k] == FutureValue(inv.(years := k + 1))
    ensures RecordYearlyGrowth(inv)[inv.years - 1] == FutureValue(inv)
  {
    var values := RecordYearlyGrowth(inv);
    forall k | 0 <= k < inv.years
      ensures values[k] == FutureValue(inv.(years := k + 1))
    {
      DuplicateEnginesAgree(inv.(years := k + 1));
    }
  }

  /** $1000 in stocks at 10% for two years grows to exactly $1210. */
  lemma StocksExample()
    ensures FutureValue(Investment(None, "u", "s", 1000.0, 10.0, 2, Stocks, None, Monthly)) == 1210.0
  {
  }

  /** $1000 in a savings account at 10% compounded twice a year for one year
      grows to $1102.50; adding $100 a month adds its monthly annuity. */
  lemma SavingsExample()
    ensures FutureValue(Investment(None, "u", "s", 1000.0, 10.0, 1, SavingsAccount, None, SemiAnnually)) == 1102.5
    ensures FutureValue(Investment(None, "u", "s", 1000.0, 10.0, 1, SavingsAccount, Some(100.0), SemiAnnually))
         == 1102.5 + Annuity(100.0, 0.1 / 12.0, 12)
  {
    assert Pow(1.05, 2) == 1.05 * Pow(1.05, 1);
    assert Compound(1000.0, 0.05, 2) == 1102.5;
  }

  /** Stocks: $100 a month is one $1200 deposit at the end of each year. */
  lemma StocksContributionExample()
    ensures FutureValue(Investment(None, "u", "s", 1000.0, 10.0, 1, Stocks, Some(100.0), Annually)) == 2300.0
  {
  }
}

=== FILE: frequency.dfy ===
/** `CompoundFrequency`: how many times a year interest is credited. */
module Frequency {
  import opened Wrappers

  datatype CompoundFrequency = Annually | SemiAnnually | Quarterly | Monthly

  /** The enum's `Int` raw value: compounding periods per year. */
  function RawValue(f: CompoundFrequency): (n: nat)
    ensures n == 1 || n == 2 || n == 4 || n == 12
  {
    match f
    case Annually => 1
    case SemiAnnually => 2
    case Quarterly => 4
    case Monthly => 12
  }

  /** The `month` property: months in one compounding period. */
  function Month(f: CompoundFrequency): (m: real)
    ensures (RawValue(f) as real) * m == 12.0
  {
    match f
    case Annually => 12.0
    case SemiAnnually => 6.0
    case Quarterly => 3.0
    case Monthly => 1.0
  }

  /** `CompoundFrequency(rawValue:)`: the case with the given raw value, if any. */
  function FromRawValue(raw: int): (r: Option<CompoundFrequency>)
    ensures r.Some? <==> raw == 1 || raw == 2 || raw == 4 || raw == 12
    ensures r.Some? ==> RawValue(r.value) == raw
  {
    if raw == 1 then Some(Annually)
    else if raw == 2 then Some(SemiAnnually)
    else if raw == 4 then Some(Quarterly)
    else if raw == 12 then Some(Monthly)
    else None
  }

  /** `allCases` (the enum is `CaseIterable`), in declaration order. */
  function AllCases(): (cs: seq<CompoundFrequency>)
    ensures |cs| == 4
    ensures forall f :: f in cs
    ensures forall i, j :: 0 <= i < j < |cs| ==> RawValue(cs[i]) < RawValue(cs[j])
  {
    var cs := [Annually, SemiAnnually, Quarterly, Monthly];
    assert forall f :: f in cs by {
      forall f ensures f in cs {
        assert cs[RawValueIndex(f)] == f;
      }
    }
    cs
  }

  /** Position of `f` in `AllCases()`. */
  function RawValueIndex(f: CompoundFrequency): nat {
    match f
    case Annually => 0
    case SemiAnnually => 1
    case Quarterly => 2
    case Monthly => 3
  }

  /** Decoding the persisted raw value gives back the case that was encoded. */
  lemma RawValueRoundTrip(f: CompoundFrequency)
    ensures FromRawValue(RawValue(f)) == Some(f)
  {
  }

  /** Distinct cases have distinct raw values. */
  lemma RawValueInjective(f: CompoundFrequency, g: CompoundFrequency)
    ensures RawValue(f) == RawValue(g) ==> f == g
  {
  }
}

=== FILE: growth.dfy ===
/** Exact compound-interest arithmetic over `real`: the powers the engine
    takes with `pow`, and the period-by-period balances those powers stand for. */
module Growth {

  /** `x` raised to a natural power (every exponent the engine uses is one). */
  function Pow(x: real, k: nat): real {
    if k == 0 then 1.0 else x * Pow(x, k - 1)
  }

  /** Balance after `periods` compounding periods, each crediting interest
      at `rate` on the running balance. */
  function Compound(balance: real, rate: real, periods: nat): real
  {
    if periods == 0 then balance
    else Compound(balance, rate, periods - 1) * (1.0 + rate)
  }

  /** Balance of an ordinary annuity: `deposit` paid in at the end of each of
      `periods` periods, the running balance earning `rate` per period. */
  function Annuity(deposit: real, rate: real, periods: nat): real
  {
    if periods == 0 then 0.0
    else Annuity(deposit, rate, periods - 1) * (1.0 + rate) + deposit
  }

  /** `balance * pow(1 + rate, periods)`: the closed form the engine evaluates
      for a compounded balance. */
  function CompoundFormula(balance: real, rate: real, periods: nat): real {
    balance * Pow(1.0 + rate, periods)
  }

  /** `deposit * ((pow(1 + rate, periods) - 1) / rate)`: the closed form the
      engine evaluates for an annuity. It divides by the rate. */
  function AnnuityFormula(deposit: real, rate: real, periods: nat): real
    requires rate != 0.0
  {
    deposit * ((Pow(1.0 + rate, periods) - 1.0) / rate)
  }

  /** Compounding `periods` times multiplies the balance by `(1 + rate)^periods`. */
  lemma {:induction false} CompoundClosedForm(balance: real, rate: real, periods: nat)
    ensures Compound(balance, rate, periods) == CompoundFormula(balance, rate, periods)
  {
    if periods > 0 {
      CompoundClosedForm(balance, rate, periods - 1);
      var p := Pow(1.0 + rate, periods - 1);
      assert (balance * p) * (1.0 + rate) == balance * ((1.0 + rate) * p);
    }
  }

  /** The annuity times the rate is the deposit times `(1 + rate)^periods - 1`. */
  lemma {:induction false} AnnuityScaled(deposit: real, rate: real, periods: nat)
    ensures rate * Annuity(deposit, rate, periods) == deposit * (Pow(1.0 + rate, periods) - 1.0)
  {
    if periods > 0 {
      var prev, p := Annuity(deposit, rate, periods - 1), Pow(1.0 + rate, periods - 1);
      var next, q := Annuity(deposit, rate, periods), Pow(1.0 + rate, periods);
      assert next == prev * (1.0 + rate) + deposit && q == (1.0 + rate) * p;
      AnnuityScaled(deposit, rate, periods - 1);
      AnnuityStep(deposit, rate, prev, p, next, q);
    }
  }

  /** One period of `AnnuityScaled`: if the scaled balance `prev` matches the
      power `p`, the next balance `next` matches the next power `q`. */
  lemma AnnuityStep(deposit: real, rate: real, prev: real, p: real, next: real, q: real)
    requires rate * prev == deposit * (p - 1.0)
    requires next == prev * (1.0 + rate) + deposit && q == (1.0 + rate) * p
    ensures rate * next == deposit * (q - 1.0)
  {
    assert rate * next == (rate * prev) * (1.0 + rate) + rate * deposit;
    assert (deposit * (p - 1.0)) * (1.0 + rate) + rate * deposit == deposit * (q - 1.0);
  }

  /** The annuity's closed form is exact for every non-zero rate. */
  lemma AnnuityClosedForm(deposit: real, rate: real, periods: nat)
    requires rate != 0.0
    ensures Annuity(deposit, rate, periods) == AnnuityFormula(deposit, rate, periods)
  {
    AnnuityScaled(deposit, rate, periods);
    SolveForQuotient(Annuity(deposit, rate, periods), rate, deposit, Pow(1.0 + rate, periods) - 1.0);
  }

  /** From `c * a == d * x` with `c` non-zero, `a == d * (x / c)`. */
  lemma SolveForQuotient(a: real, c: real, d: real, x: real)
    requires c != 0.0 && c * a == d * x
    ensures a == d * (x / c)
  {
    assert c * (d * (x / c)) == d * x;
  }

  /** Crediting non-negative interest never lowers a non-negative balance,
      and positive interest strictly raises a positive one. */
  lemma ScaleUp(x: real, rate: real)
    requires x >= 0.0 && rate >= 0.0
    ensures x * (1.0 + rate) >= x
    ensures x > 0.0 && rate > 0.0 ==> x * (1.0 + rate) > x
  {
    assert x * (1.0 + rate) == x + x * rate;
  }

  /** Without interest the annuity is just the sum of the deposits: the value
      the closed form cannot produce, since it divides by the rate. */
  lemma {:induction false} AnnuityAtZeroRate(deposit: real, periods: nat)
    ensures Annuity(deposit, 0.0, periods) == deposit * (periods as real)
  {
    if periods > 0 {
      AnnuityAtZeroRate(deposit, periods - 1);
    }
  }

  /** One raised to any power is one. */
  lemma {:induction false} PowOne(k: nat)
    ensures Pow(1.0, k) == 1.0
  {
    if k > 0 {
      PowOne(k - 1);
    }
  }

  /** A positive balance stays positive under non-negative interest. */
  lemma {:induction false} CompoundPositive(balance: real, rate: real, periods: nat)
    requires balance > 0.0 && rate >= 0.0
    ensures Compound(balance, rate, periods) > 0.0
  {
    if periods > 0 {
      CompoundPositive(balance, rate, periods - 1);
      ScaleUp(Compound(balance, rate, periods - 1), rate);
    }
  }

  /** With positive interest, more periods give a strictly larger balance. */
  lemma {:induction false} CompoundGrows(balance: real, rate: real, j: nat, k: nat)
    requires balance > 0.0 && rate > 0.0 && j < k
    ensures Compound(balance, rate, j) < Compound(balance, rate, k)
  {
    CompoundPositive(balance, rate, k - 1);
    ScaleUp(Compound(balance, rate, k - 1), rate);
    if j < k - 1 {
      CompoundGrows(balance, rate, j, k - 1);
    }
  }

  /** Non-negative deposits and interest never give a negative annuity. */
  lemma {:induction false} AnnuityNonNegative(deposit: real, rate: real, periods: nat)
    requires deposit >= 0.0 && rate >= 0.0
    ensures Annuity(deposit, rate, periods) >= 0.0
  {
    if periods > 0 {
      AnnuityNonNegative(deposit, rate, periods - 1);
      ScaleUp(Annuity(deposit, rate, periods - 1), rate);
    }
  }

  /** With positive deposits, more periods give a strictly larger annuity. */
  lemma {:induction false} AnnuityGrows(deposit: real, rate: real, j: nat, k: nat)
    requires deposit > 0.0 && rate >= 0.0 && j < k
    ensures Annuity(deposit, rate, j) < Annuity(deposit, rate, k)
  {
    AnnuityNonNegative(deposit, rate, k - 1);
    ScaleUp(Annuity(deposit, rate, k - 1), rate);
    if j < k - 1 {
      AnnuityGrows(deposit, rate, j, k - 1);
    }
  }
}

=== FILE: investment_detail.dfy ===
/** `InvestmentDetailView`: the summary card's figures for one position, its
    year-by-year series, and what deleting from the detail screen does. */
module InvestmentDetail {
  import opened Wrappers
  import opened Frequency
  import opened Kinds
  import opened Records
  import Calculator
  import Service
  import InvestmentList

  /** The summary card. `returnRate` is absent where the source divides by a
      zero total invested (IEEE NaN or infinity). */
  datatype Summary = Summary(futureValue: real, totalInvested: real, totalGain: real, returnRate: Option<real>)

  /** The return-rate expression `(totalGain / totalInvested) * 100`: the
      percentage of the amount invested that the gain represents. */
  function ReturnRate(gain: real, invested: real): (rate: real)
    requires invested != 0.0
    ensures rate * invested == gain * 100.0
  {
    assert (gain / invested) * invested == gain;
    (gain / invested) * 100.0
  }

  /** The card's figures agree with each other: the gain is the future value
      less the amount invested, and the return rate, defined exactly when
      something was invested, is the gain as a percentage of it. */
  predicate Reconciles(s: Summary) {
    && s.totalGain + s.totalInvested == s.futureValue
    && (s.returnRate.None? <==> s.totalInvested == 0.0)
    && (s.returnRate.Some? ==> s.returnRate.value * s.totalInvested == s.totalGain * 100.0)
  }

  /** The card's figures: the calculator's future value, the amount invested
      as the list computes it, their difference, and the return rate where
      it is defined. */
  function Summarize(inv: Investment): (s: Summary)
    requires Computable(inv)
    ensures s.futureValue == Records.PrincipalBalance(inv) + Records.ContributionBalance(inv)
    ensures s.totalInvested == InvestmentList.AmountInvested(inv)
    ensures s.returnRate.None? <==> s.totalInvested == 0.0
    ensures Reconciles(s)
  {
    Card(Calculator.FutureValue(inv), InvestmentList.AmountInvested(inv))
  }

  /** The card's figures for a given future value and amount invested. */
  function Card(futureValue: real, totalInvested: real): (s: Summary)
    ensures s.futureValue == futureValue && s.totalInvested == totalInvested
    ensures Reconciles(s)
  {
    var totalGain := futureValue - totalInvested;
    Summary(futureValue, totalInvested, totalGain,
            if totalInvested == 0.0 then None else Some(ReturnRate(totalGain, totalInvested)))
  }

  /** The preview's position (nothing invested, nothing contributed) has no
      defined return rate. */
  lemma PreviewReturnRateUndefined()
    ensures var preview := Investment(None, "preview-user-id", "Sample Investment", 0.0, 7.5, 10,
                                      Stocks, Some(0.0), Monthly);
      && Computable(preview)
      && Summarize(preview).futureValue == 0.0
      && Summarize(preview).totalInvested == 0.0
      && Summarize(preview).returnRate.None?
  {
    var preview := Investment(None, "preview-user-id", "Sample Investment", 0.0, 7.5, 10,
                              Stocks, Some(0.0), Monthly);
    assert Calculator.FutureValue(preview) == 0.0 by {
      Calculator.NonPositiveContributionAddsNothing(preview);
    }
    assert InvestmentList.AmountInvested(preview) == 0.0;
  }

  /** A negative contribution is counted against the amount invested but
      ignored by the valuation, so it shows as a gain. */
  lemma NegativeContributionShowsAsGain(inv: Investment)
    requires Computable(inv) && inv.years > 0
    requires inv.monthlyContribution.Some? && inv.monthlyContribution.value < 0.0
    ensures Summarize(inv).totalInvested < inv.initialAmount
    ensures Summarize(inv).futureValue == Summarize(inv.(monthlyContribution := None)).futureValue
    ensures Summarize(inv).totalGain > Summarize(inv.(monthlyContribution := None)).totalGain
  {
    var m, y := inv.monthlyContribution.value, inv.years as real;
    assert m * y < 0.0 by {
      assert m * y == -((-m) * y);
    }
    Calculator.NonPositiveContributionAddsNothing(inv);
  }

  /** `yearlyGrowth`: the calculator's series, whose last value is the card's future value. */
  method YearlyGrowth(inv: Investment) returns (values: seq<real>)
    requires inv.years >= 1 && Computable(inv)
    ensures |values| == inv.years
    ensures forall k :: 0 <= k < |values| ==> values[k] == Summarize(inv.(years := k + 1)).futureValue
    ensures values[|values| - 1] == Summarize(inv).futureValue
  {
    values := Calculator.YearlyGrowth(inv);
  }

  /** How deleting from the detail screen ends: the screen is dismissed and
      the list reloads, or it stays open and the error is only logged. */
  datatype DetailOutcome = DismissedAndReloaded | StaysOpen

  /** `deleteInvestment` on the detail screen. No signed-in user is required. */
  function DeleteFromDetail(investment: Investment, store: Service.Store, reply: Service.DeleteReply)
    : (r: (DetailOutcome, Service.Store))
    ensures r.0 == DismissedAndReloaded <==> investment.id.Some? && reply.Deleted?
    ensures r.0 == StaysOpen ==> r.1 == store
    ensures r.0 == DismissedAndReloaded ==> r.1 == store - {(investment.userId, investment.id.value)}
  {
    var t := Service.DeleteInvestment(store, investment, reply);
    if t.result.Success? then (DismissedAndReloaded, t.store) else (StaysOpen, t.store)
  }
}

=== FILE: investment_form.dfy ===
/** `InvestmentFormView`: the add/edit form's input filtering, its
    type-to-frequency rule, the Save button's enabling condition, and the
    guard chain that turns the form into a service call. Number parsing
    (`Double(String)`) is the parameter `parse`. */
module InvestmentForm {
  import opened Wrappers
  import opened Text
  import opened Frequency
  import opened Kinds
  import opened Records
  import Service

  /** The form's editable state. The numeric fields hold text. */
  datatype FormState = FormState(
    name: string,
    initialAmount: string,
    interestRate: string,
    years: int,
    investmentType: InvestmentType,
    monthlyContribution: string,
    compoundFrequency: CompoundFrequency,
    errorMessage: Option<string>)

  const NotAuthenticated := "User not authenticated"
  const NameRequired := "Investment name is required"
  const AmountNotPositive := "Initial amount must be greater than 0"
  const RateNotPositive := "Interest rate must be greater than 0"

  const MinYears := 1
  const MaxYears := 50

  /** `init(investment:onSave:)`: the edited record's fields, numbers shown
      through `formatted` (`Double.formatted()`), or the defaults of a new
      position: ten years in a savings account compounded monthly. */
  function InitialForm(investment: Option<Investment>, formatted: real -> string): (st: FormState)
    ensures st.errorMessage.None?
    ensures investment.None? ==>
      st == FormState("", "", "", 10, SavingsAccount, "", Monthly, None)
    ensures investment.Some? ==>
      && st.name == investment.value.name
      && st.initialAmount == formatted(investment.value.initialAmount)
      && st.interestRate == formatted(investment.value.interestRate)
      && st.years == investment.value.years
      && st.investmentType == investment.value.investmentType
      && st.compoundFrequency == investment.value.compoundFrequency
      && (investment.value.monthlyContribution.None? ==> st.monthlyContribution == "")
      && (investment.value.monthlyContribution.Some? ==>
            st.monthlyContribution == formatted(investment.value.monthlyContribution.value))
  {
    match investment
    case None => FormState("", "", "", 10, SavingsAccount, "", Monthly, None)
    case Some(inv) =>
      FormState(
        inv.name,
        formatted(inv.initialAmount),
        formatted(inv.interestRate),
        inv.years,
        inv.investmentType,
        match inv.monthlyContribution
        case None => ""
        case Some(m) => formatted(m),
        inv.compoundFrequency,
        None)
  }

  /** The characters the numeric fields accept. */
  predicate IsNumericChar(c: char) {
    c in "0123456789."
  }

  predicate AllNumeric(s: string) {
    forall k :: 0 <= k < |s| ==> IsNumericChar(s[k])
  }

  /** `filter { "0123456789.".contains($0) }`: exactly the accepted
      characters of `s`, each as often as it occurs there. */
  function KeepNumeric(s: string): (r: string)
    ensures AllNumeric(r)
    ensures |r| <= |s|
  {
    if s == [] then []
    else (if IsNumericChar(s[0]) then [s[0]] else []) + KeepNumeric(s[1..])
  }

  /** Each accepted character survives as often as it occurs; every other
      character is dropped. */
  lemma {:induction false} KeepNumericCounts(s: string)
    ensures forall c :: multiset(KeepNumeric(s))[c] == if IsNumericChar(c) then multiset(s)[c] else 0
  {
    if s != [] {
      assert s == [s[0]] + s[1..];
      KeepNumericCounts(s[1..]);
    }
  }

  /** `a` can be obtained from `b` by deleting characters. */
  ghost predicate IsSubsequence(a: string, b: string)
    decreases |b|
  {
    if a == [] then true
    else if b == [] then false
    else (a[0] == b[0] && IsSubsequence(a[1..], b[1..])) || IsSubsequence(a, b[1..])
  }

  /** The kept characters stay in their original order. */
  lemma {:induction false} KeepNumericIsSubsequence(s: string)
    ensures IsSubsequence(KeepNumeric(s), s)
  {
    if s != [] {
      KeepNumericIsSubsequence(s[1..]);
      if IsNumericChar(s[0]) {
        assert KeepNumeric(s)[0] == s[0] && KeepNumeric(s)[1..] == KeepNumeric(s[1..]);
      } else {
        assert KeepNumeric(s) == KeepNumeric(s[1..]);
      }
    }
  }

  /** Filtering distributes over concatenation. */
  lemma {:induction false} KeepNumericAppend(a: string, b: string)
    ensures KeepNumeric(a + b) == KeepNumeric(a) + KeepNumeric(b)
  {
    if a == [] {
      assert a + b == b;
    } else {
      var head := if IsNumericChar(a[0]) then [a[0]] else [];
      assert (a + b)[0] == a[0] && (a + b)[1..] == a[1..] + b;
      KeepNumericAppend(a[1..], b);
      calc {
        KeepNumeric(a + b);
        head + KeepNumeric(a[1..] + b);
        head + (KeepNumeric(a[1..]) + KeepNumeric(b));
        (head + KeepNumeric(a[1..])) + KeepNumeric(b);
      }
    }
  }

  /** Text made only of accepted characters passes unchanged. */
  lemma {:induction false} KeepNumericFixesNumeric(s: string)
    requires AllNumeric(s)
    ensures KeepNumeric(s) == s
  {
    if s != [] {
      KeepNumericFixesNumeric(s[1..]);
    }
  }

  /** `validateAndFormat`: filters the three numeric fields and nothing else. */
  function ValidateAndFormat(st: FormState): (r: FormState)
    ensures AllNumeric(r.initialAmount) && AllNumeric(r.interestRate) && AllNumeric(r.monthlyContribution)
    ensures r.(initialAmount := st.initialAmount, interestRate := st.interestRate,
               monthlyContribution := st.monthlyContribution) == st
  {
    st.(initialAmount := KeepNumeric(st.initialAmount),
        interestRate := KeepNumeric(st.interestRate),
        monthlyContribution := KeepNumeric(st.monthlyContribution))
  }

  /** Filtering a second time changes nothing. */
  lemma ValidateAndFormatIdempotent(st: FormState)
    ensures ValidateAndFormat(ValidateAndFormat(st)) == ValidateAndFormat(st)
  {
    var once := ValidateAndFormat(st);
    KeepNumericFixesNumeric(once.initialAmount);
    KeepNumericFixesNumeric(once.interestRate);
    KeepNumericFixesNumeric(once.monthlyContribution);
  }

  /** Each filtered field keeps its accepted characters in their original order. */
  lemma ValidateAndFormatKeepsOrder(st: FormState)
    ensures IsSubsequence(ValidateAndFormat(st).initialAmount, st.initialAmount)
    ensures IsSubsequence(ValidateAndFormat(st).interestRate, st.interestRate)
    ensures IsSubsequence(ValidateAndFormat(st).monthlyContribution, st.monthlyContribution)
  {
    KeepNumericIsSubsequence(st.initialAmount);
    KeepNumericIsSubsequence(st.interestRate);
    KeepNumericIsSubsequence(st.monthlyContribution);
  }

  /** Picking a type in the picker. `onChange` fires only when the type
      actually changes, and then switching to stocks forces annual
      compounding; any other change leaves the frequency alone. */
  function SelectType(st: FormState, newValue: InvestmentType): (r: FormState)
    ensures r.investmentType == newValue
    ensures newValue == Stocks && st.investmentType != Stocks ==> r.compoundFrequency == Annually
    ensures newValue != Stocks || st.investmentType == Stocks ==> r.compoundFrequency == st.compoundFrequency
    ensures r.(investmentType := st.investmentType, compoundFrequency := st.compoundFrequency) == st
  {
    if newValue == st.investmentType then st
    else
      var changed := st.(investmentType := newValue);
      if newValue == Stocks then changed.(compoundFrequency := Annually) else changed
  }

  /** The years stepper's value is confined to `1...50`. */
  function ClampYears(years: int): (r: int)
    ensures MinYears <= r <= MaxYears
    ensures MinYears <= years <= MaxYears ==> r == years
  {
    if years < MinYears then MinYears else if years > MaxYears then MaxYears else years
  }

  /** The stepper's "+" and "-" buttons. Only the horizon changes. */
  function IncrementYears(st: FormState): (r: FormState)
    ensures r.(years := st.years) == st
    ensures MinYears <= r.years <= MaxYears
    ensures st.years < MaxYears && st.years >= MinYears ==> r.years == st.years + 1
    ensures st.years == MaxYears ==> r.years == MaxYears
  {
    st.(years := ClampYears(st.years + 1))
  }

  function DecrementYears(st: FormState): (r: FormState)
    ensures r.(years := st.years) == st
    ensures MinYears <= r.years <= MaxYears
    ensures st.years > MinYears && st.years <= MaxYears ==> r.years == st.years - 1
    ensures st.years == MinYears ==> r.years == MinYears
  {
    st.(years := ClampYears(st.years - 1))
  }

  /** A parsed field holding a number greater than zero. */
  predicate PositiveNumber(n: Option<real>) {
    n.Some? && n.value > 0.0
  }

  /** `isFormValid`, which enables the Save button: amount and rate parse to
      positive numbers and the horizon is positive. The name is not checked. */
  function IsFormValid(st: FormState, parse: string -> Option<real>): bool {
    && parse(st.initialAmount) != None
    && parse(st.initialAmount).GetOr(0.0) > 0.0
    && parse(st.interestRate) != None
    && parse(st.interestRate).GetOr(0.0) > 0.0
    && st.years > 0
  }

  /** What pressing Save leads to: an error message and no service call, or
      the record handed to `updateInvestment` or `createInvestment`. */
  datatype SaveAction = ShowError(message: string) | CallUpdate(record: Investment) | CallCreate(record: Investment)

  /** `saveInvestment`: checks, in order, that a user is signed in, that the
      name is not blank, and that amount and rate are positive numbers, the
      first failure ending the call with its message. The record then built
      has the trimmed name, the session's user id and the edited position's
      id (absent for a new one); the contribution is parsed without any check,
      so blank or unreadable text leaves it absent. Editing calls update,
      otherwise create. */
  function SaveInvestment(st: FormState, editing: Option<Investment>, currentUserId: Option<string>,
                          parse: string -> Option<real>): (a: SaveAction)
    ensures a == ShowError(NotAuthenticated) <==> currentUserId.None?
    ensures a == ShowError(NameRequired) <==> currentUserId.Some? && AllBlank(st.name)
    ensures a == ShowError(AmountNotPositive) <==>
      currentUserId.Some? && !AllBlank(st.name) && !PositiveNumber(parse(st.initialAmount))
    ensures a == ShowError(RateNotPositive) <==>
      && currentUserId.Some? && !AllBlank(st.name) && PositiveNumber(parse(st.initialAmount))
      && !PositiveNumber(parse(st.interestRate))
    ensures a.ShowError? <==>
      || currentUserId.None? || AllBlank(st.name)
      || !PositiveNumber(parse(st.initialAmount)) || !PositiveNumber(parse(st.interestRate))
    ensures !a.ShowError? ==>
      && (a.CallUpdate? <==> editing.Some?)
      && a.record.id == (if editing.Some? then editing.value.id else None)
      && a.record.userId == currentUserId.value
      && a.record.name == Trim(st.name) && a.record.name != []
      && Some(a.record.initialAmount) == parse(st.initialAmount) && a.record.initialAmount > 0.0
      && Some(a.record.interestRate) == parse(st.interestRate) && a.record.interestRate > 0.0
      && a.record.monthlyContribution == parse(st.monthlyContribution)
      && a.record.years == st.years
      && a.record.investmentType == st.investmentType
      && a.record.compoundFrequency == st.compoundFrequency
  {
    if currentUserId.None? then ShowError(NotAuthenticated)
    else if Trim(st.name) == [] then ShowError(NameRequired)
    else if !(parse(st.initialAmount).Some? && parse(st.initialAmount).value > 0.0) then ShowError(AmountNotPositive)
    else if !(parse(st.interestRate).Some? && parse(st.interestRate).value > 0.0) then ShowError(RateNotPositive)
    else
      var monthly := parse(st.monthlyContribution);
      var newInvestment := Investment(
        if editing.Some? then editing.value.id else None,
        currentUserId.value,
        Trim(st.name),
        parse(st.initialAmount).value,
        parse(st.interestRate).value,
        st.years,
        st.investmentType,
        monthly,
        st.compoundFrequency);
      if editing.Some? then CallUpdate(newInvestment) else CallCreate(newInvestment)
  }

  /** The error message the form shows right after Save is pressed. */
  function ErrorAfterSave(a: SaveAction): (message: Option<string>)
    ensures message.Some? <==> a.ShowError?
    ensures a.ShowError? ==> message == Some(a.message)
  {
    match a
    case ShowError(m) => Some(m)
    case _ => None
  }

  /** How a save ends once the service answers: the form closes and hands a
      record to `onSave`, or it stays open showing the error. */
  datatype SaveOutcome = Saved(record: Investment) | SaveFailed(message: string)

  /** Completion of `updateInvestment`: `onSave` receives the record the form built. */
  function CompleteUpdate(built: Investment, result: Result<(), string>): (o: SaveOutcome)
    ensures o.Saved? <==> result.Success?
    ensures o.Saved? ==> o.record == built
    ensures o.SaveFailed? ==> o.message == result.error
  {
    match result
    case Success(_) => Saved(built)
    case Failure(e) => SaveFailed(e)
  }

  /** Completion of `createInvestment`: `onSave` receives the record the service returned. */
  function CompleteCreate(result: Result<Investment, string>): (o: SaveOutcome)
    ensures o.Saved? <==> result.Success?
    ensures o.Saved? ==> o.record == result.value
    ensures o.SaveFailed? ==> o.message == result.error
  {
    match result
    case Success(saved) => Saved(saved)
    case Failure(e) => SaveFailed(e)
  }

  /** A failed save is reported as the sign-in and sign-up screens report a
      failed call (`FailureMessage`): the form stays open exactly when those
      screens would show a message, and it shows that same message. */
  lemma FailureShownLikeSignIn(built: Investment, update: Result<(), string>,
                               create: Result<Investment, string>)
    ensures CompleteUpdate(built, update).SaveFailed? <==> FailureMessage(update).Some?
    ensures CompleteCreate(create).SaveFailed? <==> FailureMessage(create).Some?
    ensures FailureMessage(update).Some? ==>
      CompleteUpdate(built, update) == SaveFailed(FailureMessage(update).value)
    ensures FailureMessage(create).Some? ==>
      CompleteCreate(create) == SaveFailed(FailureMessage(create).value)
  {
  }

  /** Saving a new position: the form's `onSave` receives the record with the
      fresh id, while the document written under that id holds the record
      without one. */
  lemma NewPositionSaved(st: FormState, userId: string, parse: string -> Option<real>,
                         store: Service.Store, freshId: string)
    requires SaveInvestment(st, None, Some(userId), parse).CallCreate?
    ensures var built := SaveInvestment(st, None, Some(userId), parse).record;
      var t := Service.CreateInvestment(store, built, freshId, Service.Committed);
      && CompleteCreate(t.result) == Saved(built.(id := Some(freshId)))
      && t.store[(userId, freshId)] == Service.Stored(built)
      && built.id.None?
  {
  }

  /** Saving an edit of a stored position replaces the document at its key
      with the record the form built. */
  lemma EditedPositionSaved(st: FormState, editing: Investment, userId: string,
                            parse: string -> Option<real>, store: Service.Store)
    requires editing.id.Some?
    requires SaveInvestment(st, Some(editing), Some(userId), parse).CallUpdate?
    ensures var built := SaveInvestment(st, Some(editing), Some(userId), parse).record;
      var t := Service.UpdateInvestment(store, built, Service.Committed);
      && CompleteUpdate(built, t.result) == Saved(built)
      && t.store[(userId, editing.id.value)] == Service.Stored(built)
  {
  }

  /** Save only calls the service for amounts and rates that also enable the
      Save button; the stepper keeps the horizon positive. */
  lemma SaveCallImpliesValidNumbers(st: FormState, editing: Option<Investment>, currentUserId: Option<string>,
                                    parse: string -> Option<real>)
    requires MinYears <= st.years
    requires !SaveInvestment(st, editing, currentUserId, parse).ShowError?
    ensures IsFormValid(st, parse)
  {
  }

  /** For a signed-in user and a non-blank name, Save reaches the service
      exactly when the button is enabled. */
  lemma SaveIffFormValid(st: FormState, editing: Option<Investment>, userId: string,
                         parse: string -> Option<real>)
    requires MinYears <= st.years
    requires !AllBlank(st.name)
    ensures !SaveInvestment(st, editing, Some(userId), parse).ShowError? <==> IsFormValid(st, parse)
  {
  }

  /** Opening a stored position for editing and saving it untouched writes
      back the same record, provided the text the form shows each number as
      reads back as that number. */
  lemma UnchangedEditSavesSameRecord(inv: Investment, formatted: real -> string,
                                     parse: string -> Option<real>)
    requires forall x :: parse(formatted(x)) == Some(x)
    requires parse("") == None
    requires Trim(inv.name) == inv.name && inv.name != []
    requires inv.initialAmount > 0.0 && inv.interestRate > 0.0
    ensures inv.years > 0 ==> IsFormValid(InitialForm(Some(inv), formatted), parse)
    ensures SaveInvestment(InitialForm(Some(inv), formatted), Some(inv), Some(inv.userId), parse) == CallUpdate(inv)
  {
  }

  /** `Double.formatted()` groups thousands ("1,000" in an en-US locale),
      and `Double(String)` reads no grouping separator. An edit form opened
      on an amount of 1000 therefore starts with Save disabled, and pressing
      it untouched reports a non-positive amount. */
  lemma GroupedAmountBlocksUnchangedEdit(inv: Investment, formatted: real -> string,
                                         parse: string -> Option<real>)
    requires inv.initialAmount == 1000.0
    requires formatted(1000.0) == "1,000"
    requires forall s :: ',' in s ==> parse(s) == None
    requires Trim(inv.name) != []
    ensures !IsFormValid(InitialForm(Some(inv), formatted), parse)
    ensures SaveInvestment(InitialForm(Some(inv), formatted), Some(inv), Some(inv.userId), parse)
         == ShowError(AmountNotPositive)
  {
    assert "1,000"[1] == ',';
  }
}

=== FILE: investment_list.dfy ===
/** `InvestmentListView`: the portfolio list, its totals, how it loads and
    orders the user's positions, and how a swipe-to-delete reloads it. */
module InvestmentList {
  import opened Wrappers
  import opened Text
  import opened Records
  import opened Sorting
  import Growth
  import Calculator
  import Service

  /** `f(x)` is defined for every element `x` of `xs`. */
  ghost predicate DefinedOn<T>(f: T --> real, xs: seq<T>) {
    forall x :: x in xs ==> f.requires(x)
  }

  /** `reduce(0) { $0 + f($1) }`: the left-to-right sum of `f` over `xs`. */
  function SumOf<T>(xs: seq<T>, f: T --> real): real
    requires DefinedOn(f, xs)
  {
    if xs == [] then 0.0 else SumOf(xs[..|xs| - 1], f) + f(xs[|xs| - 1])
  }

  /** The sum over a concatenation is the sum of the two sums. */
  lemma {:induction false} SumOfAppend<T>(xs: seq<T>, ys: seq<T>, f: T --> real)
    requires DefinedOn(f, xs) && DefinedOn(f, ys)
    ensures DefinedOn(f, xs + ys)
    ensures SumOf(xs + ys, f) == SumOf(xs, f) + SumOf(ys, f)
    decreases |ys|
  {
    if ys == [] {
      assert xs + ys == xs;
    } else {
      var n := |ys| - 1;
      assert (xs + ys)[..|xs + ys| - 1] == xs + ys[..n];
      assert DefinedOn(f, ys[..n]) by {
        forall y | y in ys[..n] ensures f.requires(y) {
          var i :| 0 <= i < n && ys[..n][i] == y;
          assert ys[i] == y;
        }
      }
      SumOfAppend(xs, ys[..n], f);
    }
  }

  /** Taking out the element at `j` takes its value out of the sum. */
  lemma {:induction false} SumOfRemove<T>(ys: seq<T>, j: nat, f: T --> real)
    requires j < |ys|
    requires DefinedOn(f, ys)
    ensures DefinedOn(f, ys[..j] + ys[j + 1..])
    ensures multiset(ys[..j] + ys[j + 1..]) == multiset(ys) - multiset{ys[j]}
    ensures SumOf(ys, f) == SumOf(ys[..j] + ys[j + 1..], f) + f(ys[j])
  {
    var before, after := ys[..j], ys[j + 1..];
    assert ys == before + [ys[j]] + after;
    assert DefinedOn(f, before) && DefinedOn(f, after) by {
      forall y | y in before || y in after ensures y in ys {
      }
    }
    SumOfAppend(before, [ys[j]], f);
    SumOfAppend(before + [ys[j]], after, f);
    SumOfAppend(before, after, f);
    assert SumOf([ys[j]], f) == f(ys[j]) by {
      assert [ys[j]][..0] == [];
    }
  }

  /** The sum does not depend on the order of the elements. */
  lemma {:induction false} SumOfPermutation<T>(xs: seq<T>, ys: seq<T>, f: T --> real)
    requires multiset(xs) == multiset(ys)
    requires DefinedOn(f, xs)
    ensures DefinedOn(f, ys)
    ensures SumOf(xs, f) == SumOf(ys, f)
    decreases |xs|
  {
    assert DefinedOn(f, ys) by {
      forall y | y in ys ensures f.requires(y) {
        assert y in multiset(ys);
      }
    }
    if xs == [] {
      assert |ys| == |multiset(ys)| == 0;
    } else {
      var n := |xs| - 1;
      var x := xs[n];
      assert xs == xs[..n] + [x];
      assert multiset(xs[..n]) == multiset(xs) - multiset{x};
      assert x in multiset(ys);
      var j :| 0 <= j < |ys| && ys[j] == x;
      SumOfRemove(ys, j, f);
      assert DefinedOn(f, xs[..n]) by {
        forall y | y in xs[..n] ensures y in xs {
        }
      }
      SumOfPermutation(xs[..n], ys[..j] + ys[j + 1..], f);
    }
  }

  /** Two functions that agree element by element up to the difference `h`
      have sums that differ by the sum of `h`. */
  lemma {:induction false} SumOfDifference<T>(xs: seq<T>, f: T --> real, g: T --> real, h: T --> real)
    requires DefinedOn(f, xs) && DefinedOn(g, xs) && DefinedOn(h, xs)
    requires forall x :: x in xs ==> h(x) == f(x) - g(x)
    ensures SumOf(xs, h) == SumOf(xs, f) - SumOf(xs, g)
    decreases |xs|
  {
    if xs != [] {
      var n := |xs| - 1;
      assert forall x :: x in xs[..n] ==> x in xs;
      SumOfDifference(xs[..n], f, g, h);
    }
  }

  /** The sum read from the front: the first element's value plus the sum
      of the rest, though `reduce` adds from the left. */
  lemma SumOfFirst<T>(xs: seq<T>, f: T --> real)
    requires xs != [] && DefinedOn(f, xs)
    ensures DefinedOn(f, xs[1..])
    ensures SumOf(xs, f) == f(xs[0]) + SumOf(xs[1..], f)
  {
    assert xs == [xs[0]] + xs[1..];
    assert DefinedOn(f, xs[1..]) by {
      forall y | y in xs[1..] ensures y in xs {
      }
    }
    SumOfAppend([xs[0]], xs[1..], f);
    assert SumOf([xs[0]], f) == f(xs[0]) by {
      assert [xs[0]][..0] == [];
    }
  }

  /** What a position has cost its owner: the opening amount plus every
      monthly contribution over the horizon (none when absent). That is the
      balance the same deposits would reach at a zero rate. */
  function AmountInvested(inv: Investment): (a: real)
    ensures inv.years >= 0 ==>
      a == inv.initialAmount + Growth.Annuity(inv.monthlyContribution.GetOr(0.0), 0.0, inv.years * 12)
  {
    var a := inv.initialAmount + inv.monthlyContribution.GetOr(0.0) * (inv.years as real) * 12.0;
    if inv.years < 0 then a
    else
      Growth.AnnuityAtZeroRate(inv.monthlyContribution.GetOr(0.0), inv.years * 12);
      a
  }

  /** `totalInvested`: no list has cost nothing, and a list has cost its
      first position's amount plus what the rest has cost. */
  function TotalInvested(xs: seq<Investment>): (t: real)
    ensures xs == [] ==> t == 0.0
    ensures xs != [] ==> t == AmountInvested(xs[0]) + TotalInvested(xs[1..])
  {
    if xs == [] then 0.0
    else
      SumOfFirst(xs, AmountInvested);
      SumOf(xs, AmountInvested)
  }

  /** Every position can be valued. */
  predicate AllComputable(xs: seq<Investment>) {
    forall x :: x in xs ==> Computable(x)
  }

  /** `totalFutureValue`: zero for no list, and otherwise the first
      position's future value plus that of the rest. */
  function TotalFutureValue(xs: seq<Investment>): (t: real)
    requires AllComputable(xs)
    ensures xs == [] ==> t == 0.0
    ensures xs != [] ==> t == Calculator.FutureValue(xs[0]) + TotalFutureValue(xs[1..])
  {
    if xs == [] then 0.0
    else
      SumOfFirst(xs, Calculator.FutureValue);
      SumOf(xs, Calculator.FutureValue)
  }

  /** What one position has gained: its future value minus what it cost. */
  function PositionGain(inv: Investment): real
    requires Computable(inv)
  {
    Calculator.FutureValue(inv) - AmountInvested(inv)
  }

  /** `totalGain`: the sum, position by position, of what each has gained. */
  function TotalGain(xs: seq<Investment>): (g: real)
    requires AllComputable(xs)
    ensures g == SumOf(xs, PositionGain)
  {
    SumOfDifference(xs, Calculator.FutureValue, AmountInvested, PositionGain);
    TotalFutureValue(xs) - TotalInvested(xs)
  }

  /** The totals depend only on which positions are listed, not on their order. */
  lemma TotalsIgnoreOrder(xs: seq<Investment>, ys: seq<Investment>)
    requires multiset(xs) == multiset(ys)
    requires AllComputable(xs)
    ensures AllComputable(ys)
    ensures TotalInvested(xs) == TotalInvested(ys)
    ensures TotalFutureValue(xs) == TotalFutureValue(ys)
    ensures TotalGain(xs) == TotalGain(ys)
  {
    SumOfPermutation(xs, ys, AmountInvested);
    SumOfPermutation(xs, ys, Calculator.FutureValue);
  }

  /** Totals over two lists joined are the sums of their totals. */
  lemma TotalsOfJoinedLists(xs: seq<Investment>, ys: seq<Investment>)
    requires AllComputable(xs) && AllComputable(ys)
    ensures AllComputable(xs + ys)
    ensures TotalInvested(xs + ys) == TotalInvested(xs) + TotalInvested(ys)
    ensures TotalFutureValue(xs + ys) == TotalFutureValue(xs) + TotalFutureValue(ys)
  {
    SumOfAppend(xs, ys, AmountInvested);
    SumOfAppend(xs, ys, Calculator.FutureValue);
  }

  /** Without contributions a position has cost exactly its opening amount. */
  lemma NoContributionInvestsPrincipal(inv: Investment)
    requires inv.monthlyContribution.None?
    ensures AmountInvested(inv) == inv.initialAmount
  {
  }

  /** The list's comparison `$0.name < $1.name`. */
  predicate NameBefore(a: Investment, b: Investment) {
    LexLess(a.name, b.name)
  }

  /** Ordering by name is a strict weak order, as `sorted(by:)` demands. */
  lemma NameOrderIsStrictWeak()
    ensures StrictWeakOrder(NameBefore)
  {
    forall a: Investment, b: Investment | NameBefore(a, b)
      ensures !NameBefore(b, a)
    {
      LexLessAsymmetric(a.name, b.name);
    }
    forall a: Investment, b: Investment, c: Investment | !NameBefore(a, b) && !NameBefore(b, c)
      ensures !NameBefore(a, c)
    {
      LexLessTotal(a.name, b.name);
      LexLessTotal(b.name, c.name);
      LexLessIrreflexive(a.name);
      if LexLess(a.name, c.name) {
        if a.name == b.name {
        } else if b.name == c.name {
        } else {
          LexLessTransitive(c.name, b.name, a.name);
          LexLessAsymmetric(a.name, c.name);
        }
      }
    }
  }

  /** The screen's state: the listed positions, the spinner, the error. */
  datatype ListState = ListState(investments: seq<Investment>, isLoading: bool, errorMessage: Option<string>)

  /** What the screen shows, in the order the view tests it. */
  datatype ListScreen = Spinner | ErrorText(message: string) | EmptyState | Rows(items: seq<Investment>)

  /** The body of the list screen: the spinner while loading, else the error,
      else the empty state, else one row per position. */
  function Screen(st: ListState): (s: ListScreen)
    ensures s.Spinner? <==> st.isLoading
    ensures s.Rows? <==> !st.isLoading && st.errorMessage.None? && st.investments != []
    ensures s.Rows? ==> s.items == st.investments
    ensures s == EmptyState <==> !st.isLoading && st.errorMessage.None? && st.investments == []
    ensures s.ErrorText? <==> !st.isLoading && st.errorMessage.Some?
    ensures s.ErrorText? ==> s.message == st.errorMessage.value
  {
    if st.isLoading then Spinner
    else if st.errorMessage.Some? then ErrorText(st.errorMessage.value)
    else if st.investments == [] then EmptyState
    else Rows(st.investments)
  }

  /** The completion of `getInvestments`: on success the fetched positions,
      ordered by name, replace the list and the error is cleared; on failure
      the list is kept and the error shown. */
  function FinishLoad(st: ListState, result: Result<seq<Investment>, string>): (r: ListState)
    ensures !r.isLoading
    ensures r.errorMessage.None? <==> result.Success?
    ensures result.Success? ==>
      && SortedBy(r.investments, NameBefore)
      && multiset(r.investments) == multiset(result.value)
    ensures result.Failure? ==> r.investments == st.investments && r.errorMessage == Some(result.error)
  {
    match result
    case Success(fetched) =>
      NameOrderIsStrictWeak();
      ListState(Sort(fetched, NameBefore), false, None)
    case Failure(e) =>
      st.(isLoading := false, errorMessage := Some(e))
  }

  /** What a reload for `userId` leaves, starting from `st`, when the
      service answers `reply` over `store`: a rejection is shown over the old
      list; no snapshot empties it; an undecodable document's error is
      reported over the old list; otherwise the list holds, sorted by name,
      exactly the records stored under the user, one per document, each
      carrying its document's id. */
  ghost predicate ReloadOutcome(st: ListState, r: ListState, store: Service.Store, userId: string,
                                reply: Service.FetchReply) {
    var owned := Service.OwnedKeys(store, userId);
    && !r.isLoading
    && (reply.FetchRejected? ==> r == st.(isLoading := false, errorMessage := Some(reply.message)))
    && (reply.NoSnapshot? ==> r == ListState([], false, None))
    && (r.errorMessage.None? ==>
          && SortedBy(r.investments, NameBefore)
          && (forall x :: x in r.investments ==>
                exists k :: k in owned && Service.DecodesTo(store, k, x)))
    && (reply.Snapshot? ==>
          && (r.errorMessage.None? <==> forall k :: k in owned ==> store[k].Stored?)
          && (r.errorMessage.Some? ==>
                exists k :: k in owned && store[k].Undecodable? &&
                  r == st.(isLoading := false, errorMessage := Some(store[k].message)))
          && (r.errorMessage.None? ==>
                && |r.investments| == |owned|
                && (forall k :: k in owned ==> Service.WithDocumentId(k, store[k].record) in r.investments)
                && multiset(r.investments) == Service.StoredRecords(store, owned)))
  }

  /** `loadInvestments`: nothing happens without a signed-in user; otherwise
      the user's documents are fetched and the completion applied. */
  method LoadInvestments(st: ListState, currentUserId: Option<string>,
                         store: Service.Store, reply: Service.FetchReply)
    returns (r: ListState)
    ensures currentUserId.None? ==> r == st
    ensures currentUserId.Some? ==> ReloadOutcome(st, r, store, currentUserId.value, reply)
  {
    if currentUserId.None? {
      return st;
    }
    var loading := st.(isLoading := true);
    var result := Service.GetInvestments(store, currentUserId.value, reply);
    r := FinishLoad(loading, result);
    if result.Success? {
      SameElements(result.value, r.investments);
    }
  }

  /** A failed reload keeps the old rows but shows the error instead; the
      next successful load shows rows again. */
  lemma FailedReloadHidesRows(st: ListState, message: string, fetched: seq<Investment>)
    requires fetched != []
    ensures var failed := FinishLoad(st, Failure(message));
      && failed.investments == st.investments
      && Screen(failed) == ErrorText(message)
      && Screen(FinishLoad(failed, Success(fetched))).Rows?
  {
    var again := FinishLoad(FinishLoad(st, Failure(message)), Success(fetched));
    assert |again.investments| == |multiset(again.investments)| == |fetched|;
  }

  /** Loading sorts the positions but leaves the totals as the service's list has them. */
  lemma LoadKeepsTotals(st: ListState, fetched: seq<Investment>)
    requires AllComputable(fetched)
    ensures var r := FinishLoad(st, Success(fetched));
      && AllComputable(r.investments)
      && TotalInvested(r.investments) == TotalInvested(fetched)
      && TotalFutureValue(r.investments) == TotalFutureValue(fetched)
  {
    TotalsIgnoreOrder(fetched, FinishLoad(st, Success(fetched)).investments);
  }

  /** `deleteInvestment` from the swipe action: nothing happens without a
      signed-in user; a failed delete shows its error and keeps the list; a
      successful one reloads the list from the store it leaves behind. */
  method DeleteFromList(st: ListState, currentUserId: Option<string>, investment: Investment,
                        store: Service.Store, deleteReply: Service.DeleteReply, fetchReply: Service.FetchReply)
    returns (r: ListState, after: Service.Store)
    ensures currentUserId.None? ==> r == st && after == store
    ensures currentUserId.Some? && investment.id.None? ==>
      r == st.(errorMessage := Some(Service.IdRequired)) && after == store
    ensures currentUserId.Some? && investment.id.Some? && deleteReply.DeleteRejected? ==>
      r == st.(errorMessage := Some(deleteReply.message)) && after == store
    ensures currentUserId.Some? && investment.id.Some? && deleteReply.Deleted? ==>
      && after == store - {(investment.userId, investment.id.value)}
      && ReloadOutcome(st, r, after, currentUserId.value, fetchReply)
  {
    if currentUserId.None? {
      return st, store;
    }
    var t := Service.DeleteInvestment(store, investment, deleteReply);
    after := t.store;
    match t.result
    case Failure(e) =>
      r := st.(errorMessage := Some(e));
    case Success(_) =>
      r := LoadInvestments(st, currentUserId, after, fetchReply);
  }
}

=== FILE: investment_row.dfy ===
/** `InvestmentRowView`: the figures and display conditions of one row of the list. */
module InvestmentRow {
  import opened Wrappers
  import opened Records
  import Calculator
  import InvestmentList
  import InvestmentDetail

  /** A row: the future value, the gain, the "Monthly" line's amount when it
      is shown, and the sign prefix of the gain. */
  datatype Row = Row(futureValue: real, gain: real, monthlyLine: Option<real>, gainPrefix: string)

  /** The row's figures. The "Monthly" line appears only for a positive
      contribution, and a gain of zero or more is written with a leading "+". */
  function Present(inv: Investment): (row: Row)
    requires Computable(inv)
    ensures row.futureValue == Records.PrincipalBalance(inv) + Records.ContributionBalance(inv)
    ensures row.gain == row.futureValue - InvestmentList.AmountInvested(inv)
    ensures row.monthlyLine.Some? <==> Contributes(inv)
    ensures row.monthlyLine.Some? ==> row.monthlyLine == inv.monthlyContribution && row.monthlyLine.value > 0.0
    ensures row.gainPrefix == "+" <==> row.gain >= 0.0
    ensures row.gainPrefix != "+" ==> row.gainPrefix == ""
  {
    var futureValue := Calculator.FutureValue(inv);
    var monthly := inv.monthlyContribution.GetOr(0.0);
    var invested := inv.initialAmount + monthly * (inv.years as real) * 12.0;
    assert invested == InvestmentList.AmountInvested(inv);
    var gain := futureValue - invested;
    Row(futureValue, gain,
        match inv.monthlyContribution
        case Some(m) => if m > 0.0 then Some(m) else None
        case None => None,
        if gain >= 0.0 then "+" else "")
  }

  /** A row and the detail screen of the same position show the same figures. */
  lemma RowAgreesWithDetail(inv: Investment)
    requires Computable(inv)
    ensures Present(inv).futureValue == InvestmentDetail.Summarize(inv).futureValue
    ensures Present(inv).gain == InvestmentDetail.Summarize(inv).totalGain
  {
  }

  /** The row's gain, as a function of the position. */
  function RowGain(inv: Investment): real
    requires Computable(inv)
  {
    Present(inv).gain
  }

  /** The list's total gain is the sum of the gains its rows show. */
  lemma TotalGainIsSumOfRowGains(xs: seq<Investment>)
    requires InvestmentList.AllComputable(xs)
    ensures InvestmentList.TotalGain(xs) == InvestmentList.SumOf(xs, RowGain)
  {
    InvestmentList.SumOfDifference(xs, Calculator.FutureValue, InvestmentList.AmountInvested, RowGain);
  }
}

=== FILE: kinds.dfy ===
/** `InvestmentType`: the three kinds of position the engine switches on. */
module Kinds {
  import opened Wrappers

  datatype InvestmentType = SavingsAccount | Stocks | Bonds

  /** The enum's `String` raw value, which is what gets persisted. */
  function RawValue(t: InvestmentType): (s: string)
    ensures s == "savingsAccount" || s == "stocks" || s == "bonds"
  {
    match t
    case SavingsAccount => "savingsAccount"
    case Stocks => "stocks"
    case Bonds => "bonds"
  }

  /** `InvestmentType(rawValue:)`: the case whose raw value is `s`, if any. */
  function FromRawValue(s: string): (r: Option<InvestmentType>)
    ensures r.Some? ==> RawValue(r.value) == s
    ensures r.None? ==> s != "savingsAccount" && s != "stocks" && s != "bonds"
  {
    if s == "savingsAccount" then Some(SavingsAccount)
    else if s == "stocks" then Some(Stocks)
    else if s == "bonds" then Some(Bonds)
    else None
  }

  /** Distinct cases persist as distinct strings. */
  lemma RawValueInjective(a: InvestmentType, b: InvestmentType)
    ensures RawValue(a) == RawValue(b) ==> a == b
  {
  }

  /** Decoding the persisted raw value gives back the encoded case. */
  lemma RawValueRoundTrip(t: InvestmentType)
    ensures FromRawValue(RawValue(t)) == Some(t)
  {
  }
}

=== FILE: login.dfy ===
/** `LoginView`: the sign-in screen's button and its guard chain. The
    sign-in itself belongs to the authentication service and is represented
    by the `LogIn` action and its reported result. */
module Login {
  import opened Wrappers
  import opened Validators

  const InvalidEmail := "Invalid Email"
  /** The password message, spelled as the screen spells it. */
  const InvalidPassword := "Invalid Passwrd"

  /** What pressing "Login" leads to. */
  datatype LoginAction = ShowError(message: string) | LogIn(email: string, password: string)

  /** `handleAuthentication`: email first, then password; the service is
      called only when both pass, with the fields as typed. */
  function HandleAuthentication(email: string, password: string): (a: LoginAction)
    ensures a == ShowError(InvalidEmail) <==> !MatchesEmailPattern(email)
    ensures a == ShowError(InvalidPassword) <==> MatchesEmailPattern(email) && |password| < 6
    ensures a.LogIn? <==> MatchesEmailPattern(email) && |password| >= 6
    ensures a.LogIn? ==> a == LogIn(email, password)
  {
    if !IsValidEmail(email) then ShowError(InvalidEmail)
    else if !IsValidPassword(password) then ShowError(InvalidPassword)
    else LogIn(email, password)
  }

  /** The button is disabled while either field is empty. */
  function LoginEnabled(email: string, password: string): bool {
    !(email == [] || password == [])
  }

  /** Every request the handler lets through could come from an enabled button. */
  lemma LogInRequiresEnabledButton(email: string, password: string)
    requires HandleAuthentication(email, password).LogIn?
    ensures LoginEnabled(email, password)
  {
  }

  /** A short password is reported with the screen's own wording. */
  lemma ShortPasswordMessage()
    ensures HandleAuthentication("a@b.co", "12345") == ShowError("Invalid Passwrd")
  {
    assert "a@b.co"[1] == '@' && "a@b.co"[3] == '.';
  }
}

=== FILE: records.dfy ===
/** The `Investment` record and the valuation methods it carries itself
    (a second copy of the engine, kept alongside `InvestmentCalculator`). */
module Records {
  import opened Wrappers
  import opened Frequency
  import opened Kinds
  import opened Growth

  /** One position. `id` is the document id (absent until first persisted)
      and `userId` the owner, as the service and the form use them. */
  datatype Investment = Investment(
    id: Option<string>,
    userId: string,
    name: string,
    initialAmount: real,
    interestRate: real,
    years: int,
    investmentType: InvestmentType,
    monthlyContribution: Option<real>,
    compoundFrequency: CompoundFrequency)

  /** `if let monthly = monthlyContribution, monthly > 0`: the only case in
      which the engine adds a contribution term. */
  predicate Contributes(inv: Investment) {
    inv.monthlyContribution.Some? && inv.monthlyContribution.value > 0.0
  }

  /** The inputs on which the engine's formulas denote a number: a horizon
      that is a whole number of years, and a non-zero rate whenever the
      contribution term divides by it. */
  predicate Computable(inv: Investment) {
    inv.years >= 0 && (Contributes(inv) ==> inv.interestRate != 0.0)
  }

  /** The annual rate as a fraction: `interestRate / 100`. */
  function Rate(inv: Investment): real {
    inv.interestRate / 100.0
  }

  /** Number of compounding periods in `years` years at frequency `f`. */
  function PeriodCount(f: CompoundFrequency, years: nat): nat {
    Frequency.RawValue(f) * years
  }

  /** The principal's balance after the horizon, credited period by period:
      `n * years` periods at `r/n` for savings and bonds (n = the frequency's
      raw value), `years` periods at `r` for stocks. */
  function PrincipalBalance(inv: Investment): real
    requires inv.years >= 0
  {
    if inv.investmentType == Stocks then
      Compound(inv.initialAmount, Rate(inv), inv.years)
    else
      var n := Frequency.RawValue(inv.compoundFrequency);
      Compound(inv.initialAmount, Rate(inv) / (n as real), PeriodCount(inv.compoundFrequency, inv.years))
  }

  /** The contributions' balance after the horizon: nothing unless the monthly
      contribution `m` is positive; otherwise `m` deposited at the end of each
      of `12 * years` months at `r/12` for savings and bonds (whatever the
      frequency), and `12m` deposited at the end of each year at `r` for stocks. */
  function ContributionBalance(inv: Investment): real
    requires inv.years >= 0
  {
    if !Contributes(inv) then 0.0
    else if inv.investmentType == Stocks then
      Annuity(inv.monthlyContribution.value * 12.0, Rate(inv), inv.years)
    else
      Annuity(inv.monthlyContribution.value, Rate(inv) / 12.0, inv.years * 12)
  }

  /** `Investment.calculateFutureValue()`: the same formulas as the
      calculator's, so the same period-by-period balances. */
  function RecordFutureValue(inv: Investment): (v: real)
    requires Computable(inv)
    ensures v == PrincipalBalance(inv) + ContributionBalance(inv)
  {
    var rate := inv.interestRate / 100.0;
    var timePeriod: nat := inv.years;
    match inv.investmentType
    case SavingsAccount | Bonds =>
      var months: nat := Frequency.RawValue(inv.compoundFrequency);
      CompoundClosedForm(inv.initialAmount, rate / (months as real), months * timePeriod);
      var futureValueOfInitial :=
        CompoundFormula(inv.initialAmount, rate / (months as real), months * timePeriod);
      if Contributes(inv) then
        var monthly := inv.monthlyContribution.value;
        var monthlyRate := rate / 12.0;
        var totalMonths: nat := timePeriod * 12;
        AnnuityClosedForm(monthly, monthlyRate, totalMonths);
        futureValueOfInitial + AnnuityFormula(monthly, monthlyRate, totalMonths)
      else
        futureValueOfInitial
    case Stocks =>
      CompoundClosedForm(inv.initialAmount, rate, timePeriod);
      var futureValueOfInitial := CompoundFormula(inv.initialAmount, rate, timePeriod);
      if Contributes(inv) then
        var annualContribution := inv.monthlyContribution.value * 12.0;
        AnnuityClosedForm(annualContribution, rate, timePeriod);
        futureValueOfInitial + AnnuityFormula(annualContribution, rate, timePeriod)
      else
        futureValueOfInitial
  }

  /** The values `Investment.calculateYearlyGrowth()` has appended after
      `count` iterations of its loop over `1...years`. */
  function RecordGrowthUpTo(inv: Investment, count: nat): (values: seq<real>)
    requires Contributes(inv) ==> inv.interestRate != 0.0
    ensures |values| == count
    ensures forall k :: 0 <= k < count ==> values[k] == RecordFutureValue(inv.(years := k + 1))
  {
    if count == 0 then []
    else RecordGrowthUpTo(inv, count - 1) + [RecordFutureValue(inv.(years := count))]
  }

  /** `Investment.calculateYearlyGrowth()`: one value per year of the horizon.
      Swift's `1...years` traps when `years < 1`, hence the precondition. */
  function RecordYearlyGrowth(inv: Investment): (values: seq<real>)
    requires inv.years >= 1 && Computable(inv)
    ensures |values| == inv.years
    ensures forall k :: 0 <= k < |values| ==> values[k] == RecordFutureValue(inv.(years := k + 1))
    ensures values[|values| - 1] == RecordFutureValue(inv)
  {
    assert inv.(years := inv.years) == inv;
    RecordGrowthUpTo(inv, inv.years)
  }
}

=== FILE: registration.dfy ===
/** `RegisterView`: the sign-up screen's button and its guard chain. The
    account creation itself belongs to the authentication service and is
    represented by the `SignUp` action and its reported result. */
module Registration {
  import opened Wrappers
  import opened Text
  import opened Validators
  import Login

  const InvalidEmail := "Invalid Email"
  const InvalidPassword := "Invalid Password"
  const DisplayNameRequired := "Display Name is required"

  /** What pressing "Sign Up" leads to. */
  datatype RegisterAction =
    | ShowError(message: string)
    | SignUp(email: string, password: string, displayName: string)

  /** `handleRegistration`: email, then password, then a non-blank display
      name, the first failing check naming itself. The service receives the
      fields as typed; the name is trimmed only for the check. */
  function HandleRegistration(email: string, password: string, displayName: string): (a: RegisterAction)
    ensures a == ShowError(InvalidEmail) <==> !MatchesEmailPattern(email)
    ensures a == ShowError(InvalidPassword) <==> MatchesEmailPattern(email) && |password| < 6
    ensures a == ShowError(DisplayNameRequired) <==>
      MatchesEmailPattern(email) && |password| >= 6 && AllBlank(displayName)
    ensures a.SignUp? <==> MatchesEmailPattern(email) && |password| >= 6 && !AllBlank(displayName)
    ensures a.SignUp? ==> a == SignUp(email, password, displayName)
  {
    if !IsValidEmail(email) then ShowError(InvalidEmail)
    else if !IsValidPassword(password) then ShowError(InvalidPassword)
    else if Trim(displayName) == [] then ShowError(DisplayNameRequired)
    else SignUp(email, password, displayName)
  }

  /** Sign-up and log-in apply the same password rule: once the email
      passes, each screen refuses the password, in its own wording, exactly
      when `isValidPassword` fails. */
  lemma PasswordRuleShared(email: string, password: string, displayName: string)
    ensures HandleRegistration(email, password, displayName) == ShowError(InvalidPassword) <==>
      MatchesEmailPattern(email) && !IsValidPassword(password)
    ensures Login.HandleAuthentication(email, password) == Login.ShowError(Login.InvalidPassword) <==>
      MatchesEmailPattern(email) && !IsValidPassword(password)
  {
  }

  /** The button is disabled while any field is empty. */
  function SignUpEnabled(email: string, password: string, displayName: string): bool {
    !(email == [] || password == [] || displayName == [])
  }

  /** Every request the handler lets through could come from an enabled button. */
  lemma SignUpRequiresEnabledButton(email: string, password: string, displayName: string)
    requires HandleRegistration(email, password, displayName).SignUp?
    ensures SignUpEnabled(email, password, displayName)
  {
  }

  /** The button is enabled for a name of spaces, which the handler then refuses. */
  lemma BlankNameEnablesButtonButIsRefused()
    ensures SignUpEnabled("a@b.co", "secret", " ")
    ensures HandleRegistration("a@b.co", "secret", " ") == ShowError(DisplayNameRequired)
  {
    assert "a@b.co"[1] == '@' && "a@b.co"[3] == '.';
    assert !IsBlank(" "[0]) ==> !AllBlank(" ");
  }
}

=== FILE: service.dfy ===
/** `InvestmentService`: create, list, update and delete positions in the
    document store, modelled as transitions over a map keyed by
    (owner id, document id). The backend's reply to each call is a parameter,
    and so is the fresh id `UUID().uuidString` would produce. */
module Service {
  import opened Wrappers
  import opened Records
  import Sets

  /** The document path `users/{userId}/investments/{id}`. */
  type Key = (string, string)

  /** A stored document: a record that decodes, or one that does not,
      together with the description of the decoding error it raises (which
      differs between a missing field and a malformed value). */
  datatype Document = Stored(record: Investment) | Undecodable(message: string)

  type Store = map<Key, Document>

  /** How the backend answers `setData(from:)`: the write is committed, the
      completion reports an error, or encoding the record throws first. */
  datatype WriteReply = Committed | Rejected(message: string) | Unencodable

  /** How the backend answers `delete`: done, or an error in the completion. */
  datatype DeleteReply = Deleted | DeleteRejected(message: string)

  /** How the backend answers `getDocuments`: a snapshot, an error, or
      neither (no snapshot and no error). */
  datatype FetchReply = Snapshot | FetchRejected(message: string) | NoSnapshot

  /** A call's result together with the store it leaves behind. */
  datatype Transition<T> = Transition(result: Result<T, string>, store: Store)

  const IdRequired := "Investment ID is required"
  const CreateEncodingFailed := "Unable to create investment"
  const UpdateEncodingFailed := "Unable to update investment"

  /** Every stored record sits under its own owner's id. */
  ghost predicate OwnerScoped(store: Store) {
    forall k :: k in store && store[k].Stored? ==> store[k].record.userId == k.0
  }

  /** The keys of the documents stored under `userId`. */
  function OwnedKeys(store: Store, userId: string): set<Key> {
    set k | k in store && k.0 == userId
  }

  /** `createInvestment`: a present id is kept and an absent one replaced by
      `freshId`; the document at (the record's `userId`, that id) receives the
      caller's record as given (id still absent if it was) and the call
      returns the record with the id filled in. Nothing is written when the
      backend does not commit. */
  function CreateInvestment(store: Store, investment: Investment, freshId: string, reply: WriteReply)
    : (t: Transition<Investment>)
    ensures var id := investment.id.GetOr(freshId);
      && (t.result.Success? <==> reply == Committed)
      && (t.result.Success? ==>
            && t.result.value == investment.(id := Some(id))
            && (investment.userId, id) in t.store
            && t.store[(investment.userId, id)] == Stored(investment))
      && (forall k :: k != (investment.userId, id) ==>
            (k in t.store <==> k in store) && (k in store ==> t.store[k] == store[k]))
      && (t.result.Failure? ==> t.store == store)
    ensures reply == Unencodable ==> t.result == Failure(CreateEncodingFailed)
    ensures reply.Rejected? ==> t.result == Failure(reply.message)
    ensures OwnerScoped(store) ==> OwnerScoped(t.store)
  {
    var newInvestment := if investment.id.None? then investment.(id := Some(freshId)) else investment;
    var userId := investment.userId;
    var investmentId := newInvestment.id.value;
    match reply
    case Unencodable => Transition(Failure(CreateEncodingFailed), store)
    case Rejected(message) => Transition(Failure(message), store)
    case Committed => Transition(Success(newInvestment), store[(userId, investmentId) := Stored(investment)])
  }

  /** `updateInvestment`: without an id it fails with "Investment ID is
      required"; otherwise the whole document at (`userId`, id) is replaced by
      the record, whether or not one was there, and no other key changes. */
  function UpdateInvestment(store: Store, investment: Investment, reply: WriteReply): (t: Transition<()>)
    ensures investment.id.None? ==> t == Transition(Failure(IdRequired), store)
    ensures investment.id.Some? ==>
      && (t.result.Success? <==> reply == Committed)
      && (t.result.Success? ==>
            && (investment.userId, investment.id.value) in t.store
            && t.store[(investment.userId, investment.id.value)] == Stored(investment))
      && (forall k :: k != (investment.userId, investment.id.value) ==>
            (k in t.store <==> k in store) && (k in store ==> t.store[k] == store[k]))
      && (t.result.Failure? ==> t.store == store)
    ensures investment.id.Some? && reply == Unencodable ==> t.result == Failure(UpdateEncodingFailed)
    ensures investment.id.Some? && reply.Rejected? ==> t.result == Failure(reply.message)
    ensures OwnerScoped(store) ==> OwnerScoped(t.store)
  {
    match investment.id
    case None => Transition(Failure(IdRequired), store)
    case Some(investmentId) =>
      var userId := investment.userId;
      match reply
      case Unencodable => Transition(Failure(UpdateEncodingFailed), store)
      case Rejected(message) => Transition(Failure(message), store)
      case Committed => Transition(Success(()), store[(userId, investmentId) := Stored(investment)])
  }

  /** `deleteInvestment`: without an id it fails with "Investment ID is
      required"; otherwise the document at (`userId`, id) is removed, present
      or not, and nothing else. */
  function DeleteInvestment(store: Store, investment: Investment, reply: DeleteReply): (t: Transition<()>)
    ensures investment.id.None? ==> t == Transition(Failure(IdRequired), store)
    ensures investment.id.Some? ==>
      && (t.result.Success? <==> reply == Deleted)
      && (t.result.Success? ==> (investment.userId, investment.id.value) !in t.store)
      && (forall k :: k != (investment.userId, investment.id.value) ==>
            (k in t.store <==> k in store) && (k in store ==> t.store[k] == store[k]))
      && (t.result.Failure? ==> t.store == store && t.result.error == reply.message)
    ensures OwnerScoped(store) ==> OwnerScoped(t.store)
  {
    match investment.id
    case None => Transition(Failure(IdRequired), store)
    case Some(investmentId) =>
      var userId := investment.userId;
      match reply
      case DeleteRejected(message) => Transition(Failure(message), store)
      case Deleted => Transition(Success(()), store - {(userId, investmentId)})
  }

  /** Deleting the same position twice succeeds both times and leaves the
      store as the first deletion did. */
  lemma DeleteIsIdempotent(store: Store, investment: Investment)
    requires investment.id.Some?
    ensures var first := DeleteInvestment(store, investment, Deleted);
      var second := DeleteInvestment(first.store, investment, Deleted);
      first.result.Success? && second.result.Success? && second.store == first.store
  {
  }

  /** A create under one owner leaves every other owner's documents as they were. */
  lemma CreateLeavesOtherOwnersAlone(store: Store, investment: Investment, freshId: string,
                                     reply: WriteReply, other: string)
    requires other != investment.userId
    ensures var t := CreateInvestment(store, investment, freshId, reply);
      && OwnedKeys(t.store, other) == OwnedKeys(store, other)
      && forall k :: k in OwnedKeys(store, other) ==> t.store[k] == store[k]
  {
  }

  /** Deleting the record a create returned undoes the create, when nothing
      was stored under that key before. */
  lemma DeleteUndoesCreate(store: Store, investment: Investment, freshId: string)
    requires (investment.userId, investment.id.GetOr(freshId)) !in store
    ensures var created := CreateInvestment(store, investment, freshId, Committed);
      && created.result.Success?
      && DeleteInvestment(created.store, created.result.value, Deleted).store == store
  {
    var key := (investment.userId, investment.id.GetOr(freshId));
    var created := CreateInvestment(store, investment, freshId, Committed);
    assert created.store - {key} == store;
  }

  /** Writing the same record twice leaves the store as writing it once. */
  lemma UpdateIsIdempotent(store: Store, investment: Investment)
    requires investment.id.Some?
    ensures var once := UpdateInvestment(store, investment, Committed);
      UpdateInvestment(once.store, investment, Committed) == once
  {
  }

  /** The record a document at `k` decodes to: the `@DocumentID` wrapper
      reads the id from the document's path, whatever the stored fields say,
      so a record written with no id comes back carrying its document id. */
  function WithDocumentId(k: Key, record: Investment): (r: Investment)
    ensures r.id == Some(k.1)
    ensures r.(id := record.id) == record
  {
    record.(id := Some(k.1))
  }

  /** `x` is what the document at `k` decodes to. */
  ghost predicate DecodesTo(store: Store, k: Key, x: Investment) {
    k in store && store[k].Stored? && x == WithDocumentId(k, store[k].record)
  }

  /** A position created without an id comes back from its document with
      the fresh id, equal to the record the create returned, and that record
      addresses its document: deleting it removes exactly that key. */
  lemma CreatedPositionReloadsWithItsId(store: Store, investment: Investment, freshId: string)
    requires investment.id.None?
    ensures var t := CreateInvestment(store, investment, freshId, Committed);
      var k := (investment.userId, freshId);
      && DecodesTo(t.store, k, t.result.value)
      && DeleteInvestment(t.store, t.result.value, Deleted).store == t.store - {k}
  {
  }

  /** Every decoded record of an owner-scoped store can be edited and
      deleted at the document it came from. */
  lemma DecodedRecordAddressesItsDocument(store: Store, k: Key, x: Investment)
    requires OwnerScoped(store)
    requires DecodesTo(store, k, x)
    ensures UpdateInvestment(store, x, Committed).store == store[k := Stored(x)]
    ensures DeleteInvestment(store, x, Deleted).store == store - {k}
  {
  }

  /** `investments[i]` is the record decoded at `visited[i]`, a key of `keys`, for every `i`. */
  ghost predicate RecordsAt(store: Store, keys: set<Key>, visited: seq<Key>, investments: seq<Investment>) {
    && |investments| == |visited|
    && forall i :: 0 <= i < |visited| ==> visited[i] in keys && DecodesTo(store, visited[i], investments[i])
  }

  /** Visiting one more key whose document decodes extends the list by its record. */
  lemma RecordsAtExtend(store: Store, keys: set<Key>, visited: seq<Key>, investments: seq<Investment>,
                        k: Key, record: Investment)
    requires RecordsAt(store, keys, visited, investments)
    requires k in keys && k in store && store[k] == Stored(record)
    ensures RecordsAt(store, keys, visited + [k], investments + [WithDocumentId(k, record)])
  {
  }

  /** Once every key is visited, every document decoded, each record comes
      from one of the keys and each key's record is present. */
  lemma RecordsAtCover(store: Store, keys: set<Key>, visited: seq<Key>, investments: seq<Investment>)
    requires RecordsAt(store, keys, visited, investments)
    requires forall k :: k in keys ==> k in visited
    ensures forall k :: k in keys ==> store[k].Stored? && WithDocumentId(k, store[k].record) in investments
    ensures forall x :: x in investments ==> exists k :: k in keys && DecodesTo(store, k, x)
  {
    forall k | k in keys
      ensures store[k].Stored? && WithDocumentId(k, store[k].record) in investments
    {
      var i :| 0 <= i < |visited| && visited[i] == k;
      assert DecodesTo(store, k, investments[i]);
    }
    forall x | x in investments
      ensures exists k :: k in keys && DecodesTo(store, k, x)
    {
      var i :| 0 <= i < |investments| && investments[i] == x;
      assert DecodesTo(store, visited[i], x);
    }
  }

  /** The record a key contributes to a fetch: the one decoded there, or
      nothing when the key holds no decodable document. */
  function DocumentRecord(store: Store, k: Key): multiset<Investment> {
    if k in store && store[k].Stored? then multiset{WithDocumentId(k, store[k].record)} else multiset{}
  }

  /** The records decoded at `keys`, one occurrence per key. */
  ghost function StoredRecords(store: Store, keys: set<Key>): multiset<Investment>
    decreases keys
  {
    if keys == {} then multiset{}
    else
      var k :| k in keys;
      StoredRecords(store, keys - {k}) + DocumentRecord(store, k)
  }

  /** Any key can be taken out first: the result does not depend on the
      order in which the keys are enumerated. */
  lemma {:induction false} StoredRecordsRemove(store: Store, keys: set<Key>, k: Key)
    requires k in keys
    ensures StoredRecords(store, keys) == StoredRecords(store, keys - {k}) + DocumentRecord(store, k)
    decreases keys
  {
    var j :| j in keys && StoredRecords(store, keys) == StoredRecords(store, keys - {j}) + DocumentRecord(store, j);
    if j != k {
      StoredRecordsRemove(store, keys - {j}, k);
      StoredRecordsRemove(store, keys - {k}, j);
      assert keys - {j} - {k} == keys - {k} - {j};
    }
  }

  /** The state of the decoding loop: `visited` lists the keys taken out of
      `remaining` so far, and `investments` their records, in that order. */
  ghost predicate DecodedSoFar(store: Store, keys: set<Key>, remaining: set<Key>,
                               visited: seq<Key>, investments: seq<Investment>) {
    && remaining <= keys
    && |investments| == |visited| == |keys - remaining|
    && RecordsAt(store, keys, visited, investments)
    && (forall k :: k in keys - remaining ==> k in visited)
    && multiset(investments) + StoredRecords(store, remaining) == StoredRecords(store, keys)
  }

  /** Decoding one more stored document keeps the loop's state consistent. */
  lemma DecodeStep(store: Store, keys: set<Key>, remaining: set<Key>, visited: seq<Key>,
                   investments: seq<Investment>, k: Key, record: Investment)
    requires DecodedSoFar(store, keys, remaining, visited, investments)
    requires k in remaining && k in store && store[k] == Stored(record)
    ensures DecodedSoFar(store, keys, remaining - {k}, visited + [k], investments + [WithDocumentId(k, record)])
  {
    var x := WithDocumentId(k, record);
    Sets.VisitOne(keys, remaining, k);
    StoredRecordsRemove(store, remaining, k);
    RecordsAtExtend(store, keys, visited, investments, k, record);
    assert DocumentRecord(store, k) == multiset{x};
    assert multiset(investments + [x]) == multiset(investments) + multiset{x};
  }

  /** Once no key remains, the list holds one record per key, and exactly
      the stored records. */
  lemma DecodeDone(store: Store, keys: set<Key>, visited: seq<Key>, investments: seq<Investment>)
    requires DecodedSoFar(store, keys, {}, visited, investments)
    ensures |investments| == |keys|
    ensures forall k :: k in keys ==> store[k].Stored? && WithDocumentId(k, store[k].record) in investments
    ensures forall x :: x in investments ==> exists k :: k in keys && DecodesTo(store, k, x)
    ensures multiset(investments) == StoredRecords(store, keys)
  {
    assert keys - {} == keys;
    RecordsAtCover(store, keys, visited, investments);
  }

  /** Decodes the documents at `keys`, all or nothing: the list holds one
      record per key, in the order the keys happen to be enumerated, each
      carrying its document's id, and the first document that does not
      decode fails the whole call with its own error's description. */
  method DecodeDocuments(store: Store, keys: set<Key>) returns (result: Result<seq<Investment>, string>)
    requires keys <= store.Keys
    ensures result.Failure? <==> exists k :: k in keys && store[k].Undecodable?
    ensures result.Failure? ==> exists k :: k in keys && store[k] == Undecodable(result.error)
    ensures result.Success? ==>
      && |result.value| == |keys|
      && (forall k :: k in keys ==> WithDocumentId(k, store[k].record) in result.value)
      && (forall x :: x in result.value ==> exists k :: k in keys && DecodesTo(store, k, x))
    ensures result.Success? ==> multiset(result.value) == StoredRecords(store, keys)
  {
    var remaining := keys;
    var investments: seq<Investment> := [];
    ghost var visited: seq<Key> := [];
    while remaining != {}
      invariant DecodedSoFar(store, keys, remaining, visited, investments)
      decreases |remaining|
    {
      var k :| k in remaining;
      match store[k]
      case Undecodable(message) =>
        return Failure(message);
      case Stored(record) =>
        DecodeStep(store, keys, remaining, visited, investments, k, record);
        investments := investments + [WithDocumentId(k, record)];
        visited := visited + [k];
        remaining := remaining - {k};
    }
    DecodeDone(store, keys, visited, investments);
    return Success(investments);
  }

  /** `getInvestments(for:)`: an error is passed on, a missing snapshot
      yields the empty list, and otherwise every document under `userId` is
      decoded; one document that does not decode fails the whole fetch. Every
      record returned was stored under `userId`. */
  method GetInvestments(store: Store, userId: string, reply: FetchReply)
    returns (result: Result<seq<Investment>, string>)
    ensures reply.FetchRejected? ==> result == Failure(reply.message)
    ensures reply.NoSnapshot? ==> result == Success([])
    ensures reply.Snapshot? ==>
      (result.Failure? <==> exists k :: k in OwnedKeys(store, userId) && store[k].Undecodable?)
    ensures reply.Snapshot? && result.Failure? ==>
      exists k :: k in OwnedKeys(store, userId) && store[k] == Undecodable(result.error)
    ensures reply.Snapshot? && result.Success? ==>
      && |result.value| == |OwnedKeys(store, userId)|
      && (forall k :: k in OwnedKeys(store, userId) ==> WithDocumentId(k, store[k].record) in result.value)
      && (forall x :: x in result.value ==>
            exists k :: k in OwnedKeys(store, userId) && DecodesTo(store, k, x))
      && multiset(result.value) == StoredRecords(store, OwnedKeys(store, userId))
    ensures OwnerScoped(store) && result.Success? ==>
      forall x :: x in result.value ==> x.userId == userId
  {
    match reply
    case FetchRejected(message) =>
      return Failure(message);
    case NoSnapshot =>
      return Success([]);
    case Snapshot =>
      result := DecodeDocuments(store, OwnedKeys(store, userId));
  }
}

=== FILE: sets.dfy ===
/** Facts about finite sets used by the loops that visit a set one element at a time. */
module Sets {

  /** Moving `key` from the remaining elements to the visited ones adds exactly it. */
  lemma VisitOne<T>(all: set<T>, remaining: set<T>, key: T)
    requires remaining <= all && key in remaining
    ensures all - (remaining - {key}) == (all - remaining) + {key}
    ensures |all - (remaining - {key})| == |all - remaining| + 1
  {
    assert all - (remaining - {key}) == (all - remaining) + {key};
  }
}

=== FILE: sorting.dfy ===
/** Sorting by a strict weak order, as `sorted(by:)` does with the
    comparison closures of the list screen and the price series. */
module Sorting {

  /** `lt` is a strict weak order: asymmetric, and its complement ("not
      before") is transitive. Swift requires this of `sorted(by:)`. */
  ghost predicate StrictWeakOrder<T(!new)>(lt: (T, T) -> bool) {
    && (forall a, b :: lt(a, b) ==> !lt(b, a))
    && (forall a, b, c :: !lt(a, b) && !lt(b, c) ==> !lt(a, c))
  }

  /** No element is ordered strictly before an element that precedes it. */
  predicate SortedBy<T>(xs: seq<T>, lt: (T, T) -> bool) {
    forall i, j :: 0 <= i < j < |xs| ==> !lt(xs[j], xs[i])
  }

  /** `x` inserted into the sorted `xs` after every element ordered before it. */
  function Insert<T(!new)>(x: T, xs: seq<T>, lt: (T, T) -> bool): (r: seq<T>)
    requires StrictWeakOrder(lt) && SortedBy(xs, lt)
    ensures SortedBy(r, lt)
    ensures multiset(r) == multiset(xs) + multiset{x}
    ensures |r| == |xs| + 1
  {
    if xs == [] then [x]
    else if lt(xs[0], x) then
      var rest := Insert(x, xs[1..], lt);
      assert xs == [xs[0]] + xs[1..];
      NoneBefore(rest, xs[1..], x, xs[0], lt);
      [xs[0]] + rest
    else
      [x] + xs
  }

  /** Two sequences that are permutations of each other have the same elements. */
  lemma SameElements<T>(a: seq<T>, b: seq<T>)
    requires multiset(a) == multiset(b)
    ensures forall x :: x in a <==> x in b
  {
    forall x
      ensures x in a <==> x in b
    {
      assert x in a <==> x in multiset(a);
    }
  }

  /** A permutation of `tail` plus `x`, none of which is ordered before `y`,
      has no element ordered before `y`. */
  lemma NoneBefore<T>(rest: seq<T>, tail: seq<T>, x: T, y: T, lt: (T, T) -> bool)
    requires multiset(rest) == multiset(tail) + multiset{x}
    requires !lt(x, y)
    requires forall j :: 0 <= j < |tail| ==> !lt(tail[j], y)
    ensures forall k :: 0 <= k < |rest| ==> !lt(rest[k], y)
  {
    forall k | 0 <= k < |rest|
      ensures !lt(rest[k], y)
    {
      assert rest[k] in multiset(rest);
      if rest[k] != x {
        assert rest[k] in multiset(tail);
        var j :| 0 <= j < |tail| && tail[j] == rest[k];
      }
    }
  }

  /** `sorted(by: lt)`: a permutation of `xs` in which no element comes after
      one it is ordered before. Swift's sort is not stable, so the order among
      equivalent elements is one admissible choice, that of insertion sort. */
  function Sort<T(!new)>(xs: seq<T>, lt: (T, T) -> bool): (r: seq<T>)
    requires StrictWeakOrder(lt)
    ensures SortedBy(r, lt)
    ensures multiset(r) == multiset(xs)
    ensures |r| == |xs|
  {
    if xs == [] then []
    else
      assert xs == [xs[0]] + xs[1..];
      Insert(xs[0], Sort(xs[1..], lt), lt)
  }
}

=== FILE: stock_series.dfy ===
/** `StockViewModel.fetchHistoricalData`, after the download: turning the
    daily time series into a date-ordered price series. The download and
    JSON decoding are the parameter `response`; `DateFormatter` with format
    "yyyy-MM-dd" and `Double(String)` are the parameters `parseDate` and
    `parseClose`. A date is an instant, represented by an integer. */
module StockSeries {
  import opened Wrappers
  import opened Sorting
  import Sets

  /** One day of the time series as decoded, every figure still text. */
  datatype DailyStock = DailyStock(open: string, high: string, low: string, close: string, volume: string)

  /** `DailyStockEntry` without its random `UUID` identity. */
  datatype DailyEntry = DailyEntry(date: int, close: real)

  /** The published state: the series and the error message. */
  datatype SeriesState = SeriesState(historicalData: seq<DailyEntry>, errorMessage: Option<string>)

  const FetchFailedPrefix := "Failed to fetch data for "

  /** `e` is what the day at `key` turns into. */
  predicate EntryOf(timeSeries: map<string, DailyStock>, key: string, e: DailyEntry,
                    parseDate: string -> Option<int>, parseClose: string -> Option<real>) {
    && key in timeSeries
    && parseDate(key) == Some(e.date)
    && parseClose(timeSeries[key].close) == Some(e.close)
  }

  /** The days whose date and closing price both parse. */
  function KeptKeys(timeSeries: map<string, DailyStock>,
                    parseDate: string -> Option<int>, parseClose: string -> Option<real>): (keys: set<string>)
    ensures keys <= timeSeries.Keys
    ensures |keys| <= |timeSeries|
  {
    var keys := set key | key in timeSeries && parseDate(key).Some? && parseClose(timeSeries[key].close).Some?;
    assert timeSeries.Keys == keys + (timeSeries.Keys - keys);
    keys
  }

  /** The entry a kept day turns into. */
  function EntryAt(timeSeries: map<string, DailyStock>, key: string,
                   parseDate: string -> Option<int>, parseClose: string -> Option<real>): (e: DailyEntry)
    requires key in KeptKeys(timeSeries, parseDate, parseClose)
    ensures EntryOf(timeSeries, key, e, parseDate, parseClose)
  {
    DailyEntry(parseDate(key).value, parseClose(timeSeries[key].close).value)
  }

  /** The comparison `$0.date < $1.date`. */
  predicate DateBefore(a: DailyEntry, b: DailyEntry) {
    a.date < b.date
  }

  lemma DateOrderIsStrictWeak()
    ensures StrictWeakOrder(DateBefore)
  {
  }

  /** `entries[i]` is what the kept day `visited[i]` turns into, for every `i`. */
  ghost predicate EntriesAt(timeSeries: map<string, DailyStock>, visited: seq<string>, entries: seq<DailyEntry>,
                            parseDate: string -> Option<int>, parseClose: string -> Option<real>) {
    && |entries| == |visited|
    && forall i :: 0 <= i < |visited| ==>
         visited[i] in KeptKeys(timeSeries, parseDate, parseClose)
         && entries[i] == EntryAt(timeSeries, visited[i], parseDate, parseClose)
  }

  /** Visiting one more kept day appends its entry. */
  lemma EntriesAtExtend(timeSeries: map<string, DailyStock>, visited: seq<string>, entries: seq<DailyEntry>, key: string,
                        parseDate: string -> Option<int>, parseClose: string -> Option<real>)
    requires EntriesAt(timeSeries, visited, entries, parseDate, parseClose)
    requires key in KeptKeys(timeSeries, parseDate, parseClose)
    ensures EntriesAt(timeSeries, visited + [key], entries + [EntryAt(timeSeries, key, parseDate, parseClose)],
                      parseDate, parseClose)
  {
  }

  /** Once every kept day is visited, each entry comes from a kept day and
      each kept day's entry is present. */
  lemma EntriesAtCover(timeSeries: map<string, DailyStock>, visited: seq<string>, entries: seq<DailyEntry>,
                       parseDate: string -> Option<int>, parseClose: string -> Option<real>)
    requires EntriesAt(timeSeries, visited, entries, parseDate, parseClose)
    requires forall key :: key in KeptKeys(timeSeries, parseDate, parseClose) ==> key in visited
    ensures forall e :: e in entries ==>
      exists key :: key in KeptKeys(timeSeries, parseDate, parseClose) && EntryOf(timeSeries, key, e, parseDate, parseClose)
    ensures forall key :: key in KeptKeys(timeSeries, parseDate, parseClose) ==>
      EntryAt(timeSeries, key, parseDate, parseClose) in entries
  {
    forall e | e in entries
      ensures exists key :: key in KeptKeys(timeSeries, parseDate, parseClose) && EntryOf(timeSeries, key, e, parseDate, parseClose)
    {
      var i :| 0 <= i < |entries| && entries[i] == e;
      assert EntryOf(timeSeries, visited[i], e, parseDate, parseClose);
    }
    forall key | key in KeptKeys(timeSeries, parseDate, parseClose)
      ensures EntryAt(timeSeries, key, parseDate, parseClose) in entries
    {
      var i :| 0 <= i < |visited| && visited[i] == key;
      assert entries[i] == EntryAt(timeSeries, key, parseDate, parseClose);
    }
  }

  /** The entry a day contributes to the series: its parsed entry when it
      is kept, nothing otherwise. */
  function DayEntry(timeSeries: map<string, DailyStock>, key: string,
                    parseDate: string -> Option<int>, parseClose: string -> Option<real>): multiset<DailyEntry> {
    if key in timeSeries && parseDate(key).Some? && parseClose(timeSeries[key].close).Some?
    then multiset{DailyEntry(parseDate(key).value, parseClose(timeSeries[key].close).value)}
    else multiset{}
  }

  /** The entries the days in `keys` turn into, one occurrence per kept day,
      so two days with the same parsed date and close occur twice. */
  ghost function KeptEntries(timeSeries: map<string, DailyStock>, keys: set<string>,
                             parseDate: string -> Option<int>, parseClose: string -> Option<real>): multiset<DailyEntry>
    decreases keys
  {
    if keys == {} then multiset{}
    else
      var key :| key in keys;
      KeptEntries(timeSeries, keys - {key}, parseDate, parseClose) + DayEntry(timeSeries, key, parseDate, parseClose)
  }

  /** Any day can be taken out first: the entries do not depend on the order
      in which the days are enumerated. */
  lemma {:induction false} KeptEntriesRemove(timeSeries: map<string, DailyStock>, keys: set<string>, key: string,
                                             parseDate: string -> Option<int>, parseClose: string -> Option<real>)
    requires key in keys
    ensures KeptEntries(timeSeries, keys, parseDate, parseClose)
         == KeptEntries(timeSeries, keys - {key}, parseDate, parseClose) + DayEntry(timeSeries, key, parseDate, parseClose)
    decreases keys
  {
    var j :| j in keys && KeptEntries(timeSeries, keys, parseDate, parseClose)
      == KeptEntries(timeSeries, keys - {j}, parseDate, parseClose) + DayEntry(timeSeries, j, parseDate, parseClose);
    if j != key {
      KeptEntriesRemove(timeSeries, keys - {j}, key, parseDate, parseClose);
      KeptEntriesRemove(timeSeries, keys - {key}, j, parseDate, parseClose);
      assert keys - {j} - {key} == keys - {key} - {j};
    }
  }

  /** Days that contribute nothing can be dropped. */
  lemma {:induction false} KeptEntriesDropUnkept(timeSeries: map<string, DailyStock>, keys: set<string>,
                                                 kept: set<string>,
                                                 parseDate: string -> Option<int>, parseClose: string -> Option<real>)
    requires forall key :: key !in kept ==> DayEntry(timeSeries, key, parseDate, parseClose) == multiset{}
    ensures KeptEntries(timeSeries, keys, parseDate, parseClose)
         == KeptEntries(timeSeries, keys * kept, parseDate, parseClose)
    decreases keys
  {
    if keys != {} {
      var key :| key in keys;
      var rest := keys - {key};
      KeptEntriesRemove(timeSeries, keys, key, parseDate, parseClose);
      KeptEntriesDropUnkept(timeSeries, rest, kept, parseDate, parseClose);
      if key in kept {
        assert rest * kept == keys * kept - {key};
        KeptEntriesRemove(timeSeries, keys * kept, key, parseDate, parseClose);
      } else {
        assert rest * kept == keys * kept;
      }
    }
  }

  /** The state of the `compactMap` loop: `visited` lists the kept days
      taken out of `remaining` so far, and `entries` what they turned into. */
  ghost predicate CompactedSoFar(timeSeries: map<string, DailyStock>, remaining: set<string>,
                                 visited: seq<string>, entries: seq<DailyEntry>,
                                 parseDate: string -> Option<int>, parseClose: string -> Option<real>) {
    var kept := KeptKeys(timeSeries, parseDate, parseClose);
    && remaining <= kept
    && |entries| == |visited| == |kept - remaining|
    && EntriesAt(timeSeries, visited, entries, parseDate, parseClose)
    && (forall key :: key in kept - remaining ==> key in visited)
    && multiset(entries) + KeptEntries(timeSeries, remaining, parseDate, parseClose)
       == KeptEntries(timeSeries, kept, parseDate, parseClose)
  }

  /** Turning one more kept day into its entry keeps the loop's state consistent. */
  lemma CompactStep(timeSeries: map<string, DailyStock>, remaining: set<string>,
                    visited: seq<string>, entries: seq<DailyEntry>, key: string,
                    parseDate: string -> Option<int>, parseClose: string -> Option<real>)
    requires CompactedSoFar(timeSeries, remaining, visited, entries, parseDate, parseClose)
    requires key in remaining
    ensures CompactedSoFar(timeSeries, remaining - {key}, visited + [key],
                           entries + [EntryAt(timeSeries, key, parseDate, parseClose)], parseDate, parseClose)
  {
    var kept := KeptKeys(timeSeries, parseDate, parseClose);
    var e := EntryAt(timeSeries, key, parseDate, parseClose);
    Sets.VisitOne(kept, remaining, key);
    EntriesAtExtend(timeSeries, visited, entries, key, parseDate, parseClose);
    KeptEntriesRemove(timeSeries, remaining, key, parseDate, parseClose);
    assert DayEntry(timeSeries, key, parseDate, parseClose) == multiset{e};
    assert multiset(entries + [e]) == multiset(entries) + multiset{e};
  }

  /** Once no kept day remains, the entries are exactly those of the kept
      days, which are those of all the days. */
  lemma CompactDone(timeSeries: map<string, DailyStock>, visited: seq<string>, entries: seq<DailyEntry>,
                    parseDate: string -> Option<int>, parseClose: string -> Option<real>)
    requires CompactedSoFar(timeSeries, {}, visited, entries, parseDate, parseClose)
    ensures |entries| == |KeptKeys(timeSeries, parseDate, parseClose)|
    ensures forall e :: e in entries ==>
      exists key :: key in KeptKeys(timeSeries, parseDate, parseClose) && EntryOf(timeSeries, key, e, parseDate, parseClose)
    ensures forall key :: key in KeptKeys(timeSeries, parseDate, parseClose) ==>
      EntryAt(timeSeries, key, parseDate, parseClose) in entries
    ensures multiset(entries) == KeptEntries(timeSeries, timeSeries.Keys, parseDate, parseClose)
  {
    var kept := KeptKeys(timeSeries, parseDate, parseClose);
    assert kept - {} == kept;
    EntriesAtCover(timeSeries, visited, entries, parseDate, parseClose);
    KeptEntriesDropUnkept(timeSeries, timeSeries.Keys, kept, parseDate, parseClose);
    assert timeSeries.Keys * kept == kept;
  }

  /** `compactMap` over the time series: one entry per day whose date and
      close both parse, holding those parsed values, in the order the
      dictionary happens to enumerate its keys. Days that do not parse
      yield nothing, so only the kept days are visited. */
  method CompactMap(timeSeries: map<string, DailyStock>,
                    parseDate: string -> Option<int>, parseClose: string -> Option<real>)
    returns (entries: seq<DailyEntry>)
    ensures |entries| == |KeptKeys(timeSeries, parseDate, parseClose)|
    ensures forall e :: e in entries ==>
      exists key :: key in KeptKeys(timeSeries, parseDate, parseClose) && EntryOf(timeSeries, key, e, parseDate, parseClose)
    ensures forall key :: key in KeptKeys(timeSeries, parseDate, parseClose) ==>
      EntryAt(timeSeries, key, parseDate, parseClose) in entries
    ensures multiset(entries) == KeptEntries(timeSeries, timeSeries.Keys, parseDate, parseClose)
  {
    var kept := KeptKeys(timeSeries, parseDate, parseClose);
    var remaining := kept;
    ghost var visited: seq<string> := [];
    entries := [];
    while remaining != {}
      invariant CompactedSoFar(timeSeries, remaining, visited, entries, parseDate, parseClose)
      decreases |remaining|
    {
      var key :| key in remaining;
      CompactStep(timeSeries, remaining, visited, entries, key, parseDate, parseClose);
      entries := entries + [EntryAt(timeSeries, key, parseDate, parseClose)];
      visited := visited + [key];
      remaining := remaining - {key};
    }
    CompactDone(timeSeries, visited, entries, parseDate, parseClose);
  }

  /** `fetchHistoricalData(for:)`. Without a response the series is emptied
      and the failure named; otherwise the parsed days, ordered by date,
      replace the series and the error is cleared. */
  method FetchHistoricalData(symbol: string, response: Option<map<string, DailyStock>>,
                             parseDate: string -> Option<int>, parseClose: string -> Option<real>)
    returns (st: SeriesState)
    ensures response.None? ==> st == SeriesState([], Some(FetchFailedPrefix + symbol))
    ensures response.Some? ==>
      var timeSeries := response.value;
      && st.errorMessage.None?
      && SortedBy(st.historicalData, DateBefore)
      && |st.historicalData| == |KeptKeys(timeSeries, parseDate, parseClose)| <= |timeSeries|
      && (forall e :: e in st.historicalData ==>
            exists key :: key in KeptKeys(timeSeries, parseDate, parseClose) && EntryOf(timeSeries, key, e, parseDate, parseClose))
      && (forall key :: key in KeptKeys(timeSeries, parseDate, parseClose) ==>
            EntryAt(timeSeries, key, parseDate, parseClose) in st.historicalData)
      && multiset(st.historicalData) == KeptEntries(timeSeries, timeSeries.Keys, parseDate, parseClose)
  {
    if response.None? {
      return SeriesState([], Some(FetchFailedPrefix + symbol));
    }
    var entries := CompactMap(response.value, parseDate, parseClose);
    DateOrderIsStrictWeak();
    var sorted := Sort(entries, DateBefore);
    SameElements(entries, sorted);
    st := SeriesState(sorted, None);
  }
}

=== FILE: text.dfy ===
/** Character classes and trimming used by the validators and the forms. */
module Text {

  /** Unicode general category Zs (space separators). */
  predicate IsSpaceSeparator(c: char) {
    || c == ' '
    || c == '\U{00A0}'
    || c == '\U{1680}'
    || ('\U{2000}' <= c <= '\U{200A}')
    || c == '\U{202F}'
    || c == '\U{205F}'
    || c == '\U{3000}'
  }

  /** Foundation's `CharacterSet.whitespaces`: the space separators and tab. */
  predicate IsBlank(c: char) {
    c == '\t' || IsSpaceSeparator(c)
  }

  /** ICU's regular-expression class `\s`, which its matcher builds from the
      Unicode White_Space property: tab, line feed, vertical tab, form feed,
      carriage return, next line (U+0085) and the separators of category Z
      (Zs, Zl, Zp). */
  predicate IsRegexSpace(c: char) {
    || c == '\t' || c == '\n' || c == '\U{000B}' || c == '\U{000C}' || c == '\r' || c == '\U{0085}'
    || IsSpaceSeparator(c)
    || c == '\U{2028}' || c == '\U{2029}'
  }

  /** Every character of `s` is blank (true of the empty string). */
  predicate AllBlank(s: string) {
    forall k :: 0 <= k < |s| ==> IsBlank(s[k])
  }

  /** Length of the longest all-blank prefix of `s`. */
  function LeadingBlanks(s: string): (n: nat)
    ensures n <= |s|
    ensures forall k :: 0 <= k < n ==> IsBlank(s[k])
    ensures n < |s| ==> !IsBlank(s[n])
  {
    if s == [] || !IsBlank(s[0]) then 0 else 1 + LeadingBlanks(s[1..])
  }

  /** Length of the longest all-blank suffix of `s`. */
  function TrailingBlanks(s: string): (n: nat)
    ensures n <= |s|
    ensures forall k :: |s| - n <= k < |s| ==> IsBlank(s[k])
    ensures n < |s| ==> !IsBlank(s[|s| - 1 - n])
  {
    if s == [] || !IsBlank(s[|s| - 1]) then 0 else 1 + TrailingBlanks(s[..|s| - 1])
  }

  /** `trimmingCharacters(in: .whitespaces)`: drops the blank characters at
      both ends and keeps everything between them. */
  function Trim(s: string): (r: string)
    ensures LeadingBlanks(s) + |r| <= |s|
    ensures r == s[LeadingBlanks(s)..LeadingBlanks(s) + |r|]
    ensures r == [] <==> AllBlank(s)
    ensures r != [] ==> !IsBlank(r[0]) && !IsBlank(r[|r| - 1])
    ensures forall k :: LeadingBlanks(s) + |r| <= k < |s| ==> IsBlank(s[k])
  {
    var rest := s[LeadingBlanks(s)..];
    rest[..|rest| - TrailingBlanks(rest)]
  }

  /** String `<`, taken as lexicographic order on code points: a proper
      prefix comes first, otherwise the first differing character decides. */
  predicate LexLess(a: string, b: string)
    decreases |a|
  {
    if a == [] then b != []
    else if b == [] then false
    else if a[0] != b[0] then a[0] < b[0]
    else LexLess(a[1..], b[1..])
  }

  /** The two ways `a` can come before `b`. */
  ghost predicate LexBefore(a: string, b: string) {
    || (|a| < |b| && a == b[..|a|])
    || exists k :: 0 <= k < |a| && k < |b| && a[..k] == b[..k] && a[k] < b[k]
  }

  /** The recursive comparison only puts `a` first in one of those two ways. */
  lemma {:induction false} LexLessSound(a: string, b: string)
    requires LexLess(a, b)
    ensures LexBefore(a, b)
    decreases |a|
  {
    if a == [] {
      assert a == b[..0];
    } else if a[0] != b[0] {
      assert a[..0] == b[..0];
    } else {
      LexLessSound(a[1..], b[1..]);
      if |a[1..]| < |b[1..]| && a[1..] == b[1..][..|a[1..]|] {
        assert a == [a[0]] + a[1..] && b[..|a|] == [b[0]] + b[1..][..|a[1..]|];
      } else {
        var k :| 0 <= k < |a[1..]| && k < |b[1..]| && a[1..][..k] == b[1..][..k] && a[1..][k] < b[1..][k];
        assert a[..k + 1] == [a[0]] + a[1..][..k];
        assert b[..k + 1] == [b[0]] + b[1..][..k];
      }
    }
  }

  /** Either way of coming first is recognised by the recursive comparison. */
  lemma {:induction false} LexLessComplete(a: string, b: string)
    requires LexBefore(a, b)
    ensures LexLess(a, b)
    decreases |a|
  {
    if a != [] && b != [] && a[0] == b[0] {
      if |a| < |b| && a == b[..|a|] {
        assert a[1..] == b[1..][..|a[1..]|];
      } else {
        var k :| 0 <= k < |a| && k < |b| && a[..k] == b[..k] && a[k] < b[k];
        assert k != 0;
        assert a[1..][..k - 1] == a[..k][1..];
        assert b[1..][..k - 1] == b[..k][1..];
      }
      LexLessComplete(a[1..], b[1..]);
    }
  }

  lemma {:induction false} LexLessIrreflexive(a: string)
    ensures !LexLess(a, a)
    decreases |a|
  {
    if a != [] {
      LexLessIrreflexive(a[1..]);
    }
  }

  lemma {:induction false} LexLessAsymmetric(a: string, b: string)
    ensures LexLess(a, b) ==> !LexLess(b, a)
    decreases |a|
  {
    if a != [] && b != [] && a[0] == b[0] {
      LexLessAsymmetric(a[1..], b[1..]);
    }
  }

  /** Any two different strings are ordered one way or the other. */
  lemma {:induction false} LexLessTotal(a: string, b: string)
    ensures a == b || LexLess(a, b) || LexLess(b, a)
    decreases |a|
  {
    if a != [] && b != [] && a[0] == b[0] {
      LexLessTotal(a[1..], b[1..]);
      if a[1..] == b[1..] {
        assert a == [a[0]] + a[1..] && b == [b[0]] + b[1..];
      }
    }
  }

  lemma {:induction false} LexLessTransitive(a: string, b: string, c: string)
    requires LexLess(a, b) && LexLess(b, c)
    ensures LexLess(a, c)
    decreases |a|
  {
    if a != [] && b != [] && c != [] && a[0] == b[0] && b[0] == c[0] {
      LexLessTransitive(a[1..], b[1..], c[1..]);
    }
  }
}

=== FILE: validators.dfy ===
/** `Validators` and `SimpleError`: the credential checks of the login and
    registration screens, and the error type the service reports with. */
module Validators {
  import opened Wrappers
  import opened Text

  /** No character of `s` matches ICU's `\s`. */
  predicate NoWhitespace(s: string) {
    forall k :: 0 <= k < |s| ==> !IsRegexSpace(s[k])
  }

  /** The strings matched by the anchored pattern `^\S+@\S+\.\S+$`: no
      whitespace anywhere, an '@' with at least one character before it, and
      after it, with at least one character in between, a '.' that is not the
      last character. `\S` also matches '@' and '.', so any such pair of
      positions is a match. */
  ghost predicate MatchesEmailPattern(s: string) {
    && NoWhitespace(s)
    && exists i, j :: 1 <= i && i + 2 <= j <= |s| - 2 && s[i] == '@' && s[j] == '.'
  }

  /** The first index at or after `from` holding `c`, if any. */
  function IndexOf(s: string, c: char, from: nat): (r: Option<nat>)
    ensures r.Some? ==> from <= r.value < |s| && s[r.value] == c
    ensures r.Some? ==> forall k :: from <= k < r.value ==> s[k] != c
    ensures r.None? ==> forall k :: from <= k < |s| ==> s[k] != c
    decreases |s| - from
  {
    if from >= |s| then None
    else if s[from] == c then Some(from)
    else IndexOf(s, c, from + 1)
  }

  /** Whether `c` occurs at some index in `lo..hi`. */
  function OccursBetween(s: string, c: char, lo: nat, hi: nat): (r: bool)
    requires hi <= |s|
    ensures r <==> exists k :: lo <= k < hi && s[k] == c
    decreases hi - lo
  {
    if lo >= hi then false
    else s[lo] == c || OccursBetween(s, c, lo + 1, hi)
  }

  /** `isValidEmail`: the regular-expression search, computed by taking the
      first '@' that has a character before it (the earliest one leaves the
      widest room for the '.') and looking for a '.' far enough after it. */
  function IsValidEmail(email: string): (ok: bool)
    ensures ok <==> MatchesEmailPattern(email)
  {
    && NoWhitespace(email)
    && match IndexOf(email, '@', 1)
       case None => false
       case Some(i) => i + 2 <= |email| - 1 && OccursBetween(email, '.', i + 2, |email| - 1)
  }

  /** `isValidPassword`: at least six characters. */
  function IsValidPassword(password: string): bool {
    |password| >= 6
  }

  /** The password rule is a length threshold: a valid password stays valid
      however it is extended, and six characters is the shortest accepted. */
  lemma PasswordThreshold(password: string, suffix: string)
    ensures IsValidPassword(password) ==> IsValidPassword(password + suffix)
    ensures IsValidPassword("secret") && !IsValidPassword("secre")
  {
  }

  /** The sample address in the source's comment is accepted. */
  lemma SampleEmailAccepted()
    ensures IsValidEmail("something@domain.com")
  {
    assert "something@domain.com"[9] == '@' && "something@domain.com"[16] == '.';
  }

  /** An address missing any required part, or containing a space, is rejected. */
  lemma MalformedEmailsRejected()
    ensures !IsValidEmail("@b.com")
    ensures !IsValidEmail("a@.com")
    ensures !IsValidEmail("a@b.")
    ensures !IsValidEmail("ab.com")
    ensures !IsValidEmail("a b@c.d")
  {
  }

  /** Several '@' are accepted, since `\S` matches '@' too. */
  lemma SeveralAtSignsAccepted()
    ensures IsValidEmail("a@b@c.d")
  {
    assert "a@b@c.d"[1] == '@' && "a@b@c.d"[5] == '.';
  }

  /** `SimpleError`: an error carrying only a message. */
  datatype SimpleError = SimpleError(message: string)

  /** `localizedDescription`, which is the message the error was built with. */
  function LocalizedDescription(e: SimpleError): string {
    e.message
  }

  /** Building an error and reading its description gives back the message. */
  lemma DescriptionRoundTrip(message: string)
    ensures LocalizedDescription(SimpleError(message)) == message
  {
  }

  /** What a completion handler shows for a `SimpleError` as written. The
      handlers receive it as `any Error`, and `localizedDescription` on that
      type is Foundation's extension member, not the struct's own property,
      so the text is Foundation's bridged description `bridged`, whatever
      the message. */
  function DescriptionThroughError(e: SimpleError, bridged: string): string {
    bridged
  }

  /** As written, two errors with different messages read the same once
      passed through `Error`: the update screen cannot tell a missing id from
      an encoding failure. */
  lemma MessageLostThroughError(bridged: string)
    ensures SimpleError("Investment ID is required").message != SimpleError("Unable to update investment").message
    ensures DescriptionThroughError(SimpleError("Investment ID is required"), bridged)
         == DescriptionThroughError(SimpleError("Unable to update investment"), bridged)
  {
  }
}

=== FILE: wrappers.dfy ===
/** Swift's `Optional` and `Result<Success, Error>`, as every module uses them. */
module Wrappers {

  /** Swift's `Optional`: `nil` or a wrapped value. */
  datatype Option<+T> = None | Some(value: T) {

    /** The `??` operator: the wrapped value, or `default` when absent. */
    function GetOr(default: T): T {
      if Some? then value else default
    }
  }

  /** Swift's `Result`: the success value or the failure. */
  datatype Result<+R, +E> = Success(value: R) | Failure(error: E)

  /** What a screen shows once a call completes: no error on success, the
      failure's description otherwise. */
  function FailureMessage<R, E>(result: Result<R, E>): Option<E> {
    match result
    case Success(_) => None
    case Failure(e) => Some(e)
  }
}
